=== FILE: README.md ===
# YoutubeBackend controllers in Dafny

A model of the request handlers of a video-sharing backend (Express over MongoDB):
toggling likes and subscriptions, listing a viewer's liked videos and a channel's
subscribers, opening a video (view counting and watch history) and its detail
aggregate, the search feed, publishing a video, listing, adding and deleting comments,
registering, logging in and out, the channel-stats aggregate of the dashboard, and the
media-host helpers (the upload guard and the public-id parser behind deletion).

The database is a class `Store.Db` whose fields are the five collections (`users`,
`videos`, `comments`, `likes`, `subscriptions`) as sequences in stored order, plus the
next fresh `_id`; `Db.Valid()` says every stored `_id` is unique and below that counter.
Handlers that write are module-level methods that take the `Db` and carry field-level
`modifies` frames; each one
states which status it fails with and exactly what the collections become. Read-only
aggregation pipelines are pure functions whose contracts say which documents they
return (count, soundness, completeness, the joined fields). A failure is
`Failure(status)` with the HTTP status the handler throws (400, 401, 404, 409, 500).

Files: `common.dfy` (Option, Result, statuses, JavaScript truthiness of a string field),
`gateway.dfy` (the generic `findOne` / `find` / `findByIdAndDelete` / count layer over a
collection, keyed by a field-selector function), `entities.dfy` (the documents),
`toggle.dfy` (the find-then-delete-or-insert toggle shared by likes and subscriptions),
`store.dfy`, `multipart.dfy` (reading `req.files`), `cloudinary.dfy`, and one module per
controller: `likes.dfy`, `subscriptions.dfy`, `videos.dfy`, `comments.dfy`, `users.dfy`,
`dashboard.dfy`.

Inputs the handlers get from outside the database are parameters: what the remote upload
answers (`Option<Upload>`, `None` when it throws), the password check, the refresh token
that was generated, the current time, the case-insensitive regular-expression match of the
feed search, and the schema default of `isPublished`.

## Model

| member | source | states |
|---|---|---|
| Gateway.Find | src/controllers/like.controller.js:23 | `findOne` by a key: the loop answers the position of the first stored document with that key, or none when no document has it |
| Gateway.RemoveFirstCount | src/controllers/like.controller.js:23-27 | deleting the document `findOne` found lowers that key's count by one when present and leaves every other key's count unchanged |
| Gateway.RemoveByIdIsWithout | src/controllers/comment.controller.js:103 | with unique `_id`s, `findByIdAndDelete` removes exactly the documents with that id and keeps all others in order |
| Gateway.IdCountAtMostOne | src/controllers/dashboard.controller.js:65-70 | with unique `_id`s, at most one document has a given id, and exactly one when some stored document has it |
| Entities.FirstUser | src/controllers/like.controller.js:71-77 | `$arrayElemAt: [lookup, 0]`: a stored user with that id when one exists, absent only when no user has that id |
| Toggle.ToggleOutcome | src/controllers/like.controller.js:24-33 | a toggle answers "removed" exactly when a row for the pair exists, "added" otherwise |
| Toggle.ToggleCount | src/controllers/like.controller.js:23-33 | a toggle adds one row for an absent pair or removes one for a present pair; every other pair's row count is unchanged |
| Toggle.ToggleKeepsOthers | src/controllers/like.controller.js:23-33 | a toggle leaves the rows of every other pair, and their order, untouched |
| Toggle.ToggleTwiceRestores | src/controllers/like.controller.js:23-33 | two toggles of a pair with at most one row answer opposite outcomes and restore every pair's row count and all other rows |
| Toggle.ToggleTwiceFromAbsent | src/controllers/subscription.controller.js:17-33 | toggling an absent pair answers "added", toggling again answers "removed", and the collection is exactly as before |
| Likes.ToggleVideoLike | src/controllers/like.controller.js:9-34 | missing video, then missing user: 401 with nothing written; otherwise the viewer's like is removed when present and a new like saved when absent, with ids kept unique |
| Likes.LikeToggledTwice | src/controllers/like.controller.js:23-33 | liking then unliking a video (either order) restores every (video, user) like count and every other like |
| Likes.VideosWithOwner | src/controllers/like.controller.js:56-80 | the video lookup returns exactly the videos with that id, each stored, each joined with its first owner |
| Likes.LikedVideos | src/controllers/like.controller.js:46-84 | one row per like of the viewer, only the viewer's likes and all of them, each with its video lookup |
| Subscriptions.ToggleSubscription | src/controllers/subscription.controller.js:8-34 | either user missing: 404 with nothing written; otherwise the subscription row is removed or added, ids kept unique |
| Subscriptions.SubscriptionToggledTwice | src/controllers/subscription.controller.js:17-33 | subscribing then unsubscribing restores every pair's count and leaves other subscriptions untouched |
| Subscriptions.ChannelSubscribers | src/controllers/subscription.controller.js:37-46 | exactly the subscriptions to the channel (an empty list is a success) |
| Store.Db.InsertLike | src/controllers/like.controller.js:28-32 | `save` appends one like with a fresh id and keeps ids unique |
| Store.Db.InsertSubscription | src/controllers/subscription.controller.js:27-32 | `save` appends one subscription with a fresh id and keeps ids unique |
| Store.Db.InsertComment | src/controllers/comment.controller.js:83-87 | `create` appends one comment with a fresh id and keeps ids unique |
| Store.Db.InsertVideo | src/controllers/video.controller.js:130-137 | `create` appends the video with a fresh id and keeps ids unique |
| Store.Db.InsertUser | src/controllers/user.controller.js:64-71 | `create` appends the user with a fresh id and keeps ids unique |
| Videos.AlreadyWatched | src/controllers/video.controller.js:158 | the loop answers true exactly when some watch-history entry names the video |
| Videos.OpenVideo | src/controllers/video.controller.js:150-169 | fails with 404 exactly when the video or the user is missing; on success no document is added or removed |
| Videos.FirstViewCounts | src/controllers/video.controller.js:158-169 | an unwatched video gains one view and one history entry stamped now; afterwards it counts as watched; other videos' views and other users' histories are unchanged |
| Videos.RepeatViewIsNoOp | src/controllers/video.controller.js:158-169 | opening the same video again, at any later time, changes nothing |
| Videos.TwoViewsAddAtMostOne | src/controllers/video.controller.js:158-169 | opening the same video twice, at any times, raises its view count by at most one |
| Videos.OpenVideoKeepsLookups | src/controllers/video.controller.js:162-168 | the view update never changes which document a video or user id finds |
| Videos.Detail | src/controllers/video.controller.js:178-238 | `isLiked` holds exactly when the viewer has a like on the video; `totalLikes` counts the video's likes; owner details are present exactly when the owner exists, carrying the id, `fullName`, `avatar` and `username` of the first user with that id and the channel's subscriber count |
| Videos.Details | src/controllers/video.controller.js:172-239 | one detail per video with that id, each as `Detail` describes |
| Videos.RecordView | src/controllers/video.controller.js:150-169 | the in-place view update reports whether video and viewer exist and leaves the collections exactly as `OpenVideo` describes, ids kept unique |
| Videos.GetVideoById | src/controllers/video.controller.js:145-242 | 404 with nothing written exactly when the view update fails; otherwise the collections are the view update's result and the answer is the detail aggregate over them |
| Videos.Matching | src/controllers/video.controller.js:14-30 | exactly the stored videos that match the search in title or description, are published, and belong to the owner filter when given |
| Videos.FeedRowOf | src/controllers/video.controller.js:36-75 | a feed row carries the video, its like count, the `owner_details` array (one projected entry per user with the owner id, in stored order, since no stage removes it) and, as its first element, the flattened owner: present exactly when the owner exists, with the id, `fullName`, `avatar` and `username` of the first user with that id |
| Gateway.SelectHeadIsFirst | src/controllers/video.controller.js:54-60 | the first row of `find` on a key is the row `findOne` lands on, so `$arrayElemAt: 0` of a lookup is the first match |
| Videos.InsertByNewest | src/controllers/video.controller.js:76-80 | inserting into a newest-first list keeps it newest-first and adds exactly that row |
| Videos.SortByNewest | src/controllers/video.controller.js:76-80 | `$sort: {createdAt: -1}`: newest-first and a permutation of its input |
| Videos.Feed | src/controllers/video.controller.js:9-92 | newest-first, one row per matching video, only matching videos and every one of them |
| Videos.PublishAVideo | src/controllers/video.controller.js:101-143 | in order: a multipart request without a `videoFile` field 500 (the read throws), no video path 404, video upload fails 500, a multipart request without a `thumbnail` field 500, no thumbnail path 404, thumbnail upload fails 500, with nothing stored; it succeeds exactly when every check passes, appending one video with both urls, the duration and the owner; the paths sent to the host are listed in order |
| Videos.PublishedVideoInFeed | src/controllers/video.controller.js:14-30 | a published video matching the search appears in the feed, with or without its owner as filter |
| Comments.Skip | src/controllers/comment.controller.js:52-56 | for integer `page` and `limit` (query strings coerced by `-` and `*`, defaults 1 and 10): the offset is zero on the first or default page, uses limit 10 by default, and is not negative when the page is at least 1 and the limit is not negative |
| Comments.PagesAbut | src/controllers/comment.controller.js:52-56 | page p+1 starts exactly one page size after page p |
| Comments.OwnerCard | src/controllers/comment.controller.js:24-45 | the owner card is present exactly when a user with the owner id exists, and carries that id and the `username` and `avatar` of the first user with it |
| Comments.VideoComments | src/controllers/comment.controller.js:15-51 | one row per comment on the video, in stored order, each the comment with its owner card |
| Comments.VideoCommentsSoundComplete | src/controllers/comment.controller.js:15-22 | every listed row is the row of a stored comment on the video, and every stored comment on the video is listed |
| Comments.GetVideoComments | src/controllers/comment.controller.js:9-64 | 401 exactly when no video id is given; otherwise the video's comment rows with the page offset and size |
| Comments.AddComment | src/controllers/comment.controller.js:66-92 | 401 with nothing written unless a video id and non-empty content are given and both user and video exist; then exactly one comment is appended |
| Comments.DeleteComment | src/controllers/comment.controller.js:98-106 | 401 without an id; otherwise the comment with that id is gone, all others stay in order, and the answer is a success even if none matched |
| Comments.DeletedCommentIsGone | src/controllers/comment.controller.js:103 | after deletion no comment has that id, every remaining comment was stored before, and every other comment remains |
| Users.TrimStart | src/controllers/user.controller.js:32 | removes exactly the leading whitespace: a suffix whose first character is not whitespace |
| Users.TrimEnd | src/controllers/user.controller.js:32 | removes exactly the trailing whitespace: a prefix whose last character is not whitespace |
| Users.Trim | src/controllers/user.controller.js:32 | the result is `s` with its leading and trailing whitespace removed and nothing else: a slice of `s` with only whitespace before and after it, empty or starting and ending with non-whitespace |
| Users.TrimEmptyIffAllSpace | src/controllers/user.controller.js:31-35 | a field trims to "" exactly when all of its characters are whitespace |
| Users.Lower | src/controllers/user.controller.js:70 | same length, no upper-case ASCII letter left, upper-case letters shifted down and all other characters kept |
| Users.CaseVariantPassesDuplicateCheck | src/controllers/user.controller.js:37-43 | the duplicate check compares the username as sent, so "Alice" passes when "alice" is stored |
| Users.WithRefreshToken | src/controllers/user.controller.js:13-14 | only the first user with that id gets the new token; every other user and every id is unchanged |
| Users.TokenLandsOnThatUser | src/controllers/user.controller.js:138-148 | with unique ids, the user with that id holds the token and every other user is as stored |
| Users.RegisterUser | src/controllers/user.controller.js:28-84 | in order: blank field 400, taken 409, a multipart request without an `avatar` field 500 (the read throws), no avatar path 409, avatar upload fails 400, absent field 500, with nothing stored; it succeeds exactly when every check passes, appending one user with the lower-cased username and the cover url or "", and answers that user without its password |
| Users.SelectedHidesOnlyPassword | src/controllers/user.controller.js:73-75 | `.select("-password -refreshtoken")` hides exactly the password: two users look alike afterwards exactly when they differ at most in it, and the refresh token stays |
| Users.LoginUser | src/controllers/user.controller.js:86-135 | neither email nor username 400, no user 401, wrong password 401; otherwise the found user's refresh token is set, nothing else changes, and the answer is that user, with the token, without its password |
| Users.LogoutUser | src/controllers/user.controller.js:137-157 | the user's refresh token is cleared and every other user is unchanged |
| Dashboard.ChannelTotals | src/controllers/dashboard.controller.js:19-61 | the channel lookup yields at most one totals document, none exactly when the user is missing or owns no video; with distinct ids its `totalViews` is the sum of the views of the channel's videos and its `totalLikes` the number of likes on them |
| Dashboard.ChannelStats | src/controllers/dashboard.controller.js:10-89 | no rows without subscribers or channel totals; each row repeats the channel totals; row ids are distinct |
| Dashboard.GroupRowsSound | src/controllers/dashboard.controller.js:65-71 | every grouped row is keyed by an id of some input document and counts that id's documents |
| Dashboard.GroupRowsComplete | src/controllers/dashboard.controller.js:65-71 | every input id gets a grouped row |
| Dashboard.GroupIdsDistinct | src/controllers/dashboard.controller.js:65-71 | grouped rows have pairwise distinct ids |
| Dashboard.StatsWithDistinctIds | src/controllers/dashboard.controller.js:65-78 | with unique subscription ids, each subscriber of the channel gets its own row with `totalSubscribers` 1 |
| Dashboard.SumLikesCountsEachLikeOnce | src/controllers/dashboard.controller.js:33-56 | summing the like counts of distinct videos counts each like on those videos exactly once |
| Dashboard.ChannelSummaryOf | src/controllers/dashboard.controller.js:65-78 | the corrected stats: one summary with the channel's subscriber count, the sum of its videos' views, and (with distinct video ids) the number of likes on its videos; zero sums without videos |
| Dashboard.RowsSplitSummary | src/controllers/dashboard.controller.js:62-83 | where the pipeline answers, its row count is the channel's subscriber count and each row repeats the summary's sums |
| Dashboard.StatsSplitPerSubscriber | src/controllers/dashboard.controller.js:65-70 | two subscribers and one video give two rows of one subscriber each; no video gives no row |
| Cloudinary.LastIndexOf | src/utils/cloudinary.js:12 | the position of the last occurrence of a character, absent exactly when it does not occur |
| Cloudinary.ExtractPublicId | src/utils/cloudinary.js:10-14 | a public id is non-empty and contains no slash |
| Cloudinary.MatchIsUnique | src/utils/cloudinary.js:12 | the pattern can match a url at one place only |
| Cloudinary.MatchGivesCapture | src/utils/cloudinary.js:12-13 | where the pattern matches, the parser answers the captured group |
| Cloudinary.CaptureIsMatch | src/utils/cloudinary.js:12-13 | whatever the parser answers is the captured group of a match |
| Cloudinary.ExtractIsRegexCapture | src/utils/cloudinary.js:10-14 | the parser answers null exactly when the pattern matches nowhere, and the group otherwise |
| Cloudinary.ExtractRoundTrip | src/utils/cloudinary.js:12 | a url ending in `/stem.ext` gives back the stem, dots included |
| Cloudinary.UploadToCloudinary | src/utils/cloudinary.js:17-31 | a falsy path is neither sent nor unlinked and answers null; any other path is sent once and its local file unlinked whether the host answers or throws; a non-null answer is the host's answer to a path that was sent |
| Cloudinary.DestroyRequest | src/utils/cloudinary.js:33-48 | no remote call for a falsy url or one without a public id; otherwise destroys exactly the url's public id |
| Multipart.FirstPathAsWritten | src/controllers/video.controller.js:102 | throws (500) exactly for a multipart request that lacks the field; otherwise the first path sent under it, absent exactly when none was sent |
| Multipart.FirstPath | src/controllers/user.controller.js:46-52 | the guarded read: the as-written read wherever that does not throw, and "no file" where it throws |
| Multipart.MissingFieldThrows | src/controllers/video.controller.js:102 | a request with only a thumbnail makes the video-path read throw, where the guarded read reports it missing |

## Left out

- HTTP plumbing: the response envelope, cookies and their options, status 200 bodies. Handlers return the payload or the failure status.
- getAllVideos (video.controller.js:94-98) answers twice when the page is empty. The second `res.json` is not modelled.
- Paging by the paginator plugin. In getAllVideos, `parseInt` of an absent `page`/`limit` gives NaN. Only the offset handed to the paginator is modelled. The empty-page branch of getVideoComments (comment.controller.js:59) is also left out.
- Comments.Skip: `page` and `limit` of getVideoComments are query strings coerced to numbers by `(page - 1) * limit`; non-integer values (a fractional offset) and non-numeric ones (a NaN offset) are not modelled, only integers.
- The regular-expression search is a parameter `matches`. Case-insensitive regex semantics are not modelled.
- Token signing, password hashing and the password comparison are parameters. The 500 path of generateAccessAndRefreshTokens is not modelled.
- The remote upload and destroy calls and the file system are left out. Upload answers are inputs; which local paths are sent to the host and unlinked is returned.
- Concurrency between requests is left out. Every handler runs alone.
- Casting a malformed id to ObjectId (a thrown CastError) is left out. Ids are natural numbers.
- `new Date()` is the parameter `now`. Stored `createdAt` values are given.
- asyncHandler.js is not part of this model. A thrown error is taken to become a 500 response. user.controller.js imports it as `asynHandler`; the model takes that to be the same wrapper.
- user.model.js and video.model.js are not part of this model. A `User.create` with an absent fullName, email or password is taken to fail with 500. No unique index or `lowercase` setter on `username` or `email` is assumed, so a username that differs only in case from a stored one is created. A new video is taken to start with `views` 0 and `createdAt` the time of the request. The schema default of `isPublished` is a parameter.
- A `$or` clause whose value is absent is taken to match no user.
- Users.LogoutUser: `$set: {refreshToken: undefined}` is taken to clear the stored token, as a driver that writes undefined as null does. A driver version that drops undefined keys would leave the token in place; no version is fixed by the modelled files.
- Users.Lower: lower-cases ASCII letters only, not the full Unicode case mapping of `toLowerCase`.
- The order of `$group` output is not modelled; the model keeps first-appearance order. Ties of `$sort` keep stored order.
- Empty handlers are not modelled: updateVideo, deleteVideo, togglePublishStatus, updateComment, toggleCommentLike, toggleTweetLike, getSubscribedChannels and getChannelVideos.
- Absent `title`/`description` in the publish body are not modelled; they are passed as given strings.
- src/db/index.js, src/index.js and the auth middleware are not part of this model. The authenticated user id is an input.
- Toggle deletion by the found document's `_id` is modelled as deleting the found row. Under unique ids this is the same row.

## Findings

| source | as written | input that shows it | evidently intended | confidence | as-written member | corrected member |
|---|---|---|---|---|---|---|
| src/controllers/video.controller.js:102 | `req.files?.videoFile[0]?.path` guards only `req.files`; a multipart request without a `videoFile` part throws a TypeError (500). The same holds at line 115 for `thumbnail` and at user.controller.js:44 for `avatar`. | `req.files = {thumbnail: ["uploads/thumb.png"]}` with no `videoFile` | the handler's own check: 404 "Video not available" (409 for a missing avatar), which the guarded read (the form registerUser uses for its cover image) gives; the modelled handlers keep the throwing read | medium, not executed | Multipart.MissingFieldThrows | Multipart.FirstPath |
| src/controllers/dashboard.controller.js:65-70 | `$group` keys on each subscription's `_id`, so every subscriber becomes its own row with `totalSubscribers: 1`; a channel without videos loses every row at the inner `$unwind` | a channel with subscriptions from users 1 and 2 and one video of 3 views gives two rows of 1 subscriber each; with no video it gives no rows | one channel summary with `totalSubscribers: 2` and the channel's sums, zero when it has no video | medium, not executed | Dashboard.StatsSplitPerSubscriber | Dashboard.ChannelSummaryOf |

=== FILE: cloudinary.dfy ===
/** The media-host helpers: the public-id parser and the guards in front of the
    remote upload and destroy calls. The remote calls themselves are inputs. */
module Cloudinary {
  import opened Common

  /** `\w` in a JavaScript regular expression. */
  predicate IsWordChar(c: char)
  {
    ('a' <= c <= 'z') || ('A' <= c <= 'Z') || ('0' <= c <= '9') || c == '_'
  }

  predicate AllWord(s: string)
  {
    forall i :: 0 <= i < |s| ==> IsWordChar(s[i])
  }

  /** The last position of `c` in `s`, if any. */
  function LastIndexOf(s: string, c: char): (r: Option<nat>)
    ensures r.Some? ==> r.value < |s| && s[r.value] == c
    ensures r.Some? ==> forall j :: r.value < j < |s| ==> s[j] != c
    ensures r.None? ==> forall j :: 0 <= j < |s| ==> s[j] != c
  {
    if s == [] then None
    else if s[|s| - 1] == c then Some(|s| - 1)
    else LastIndexOf(s[..|s| - 1], c)
  }

  /** The pattern `/\/([^\/]+)(?=\.\w+$)/` matches `url` with its `/` at `p` and its
      captured group ending just before position `e` (the `.` of the extension). */
  ghost predicate MatchAt(url: string, p: int, e: int)
  {
    && 0 <= p && p + 1 < e && e + 1 < |url|
    && url[p] == '/'
    && (forall i :: p < i < e ==> url[i] != '/')
    && url[e] == '.'
    && AllWord(url[e + 1..])
  }

  /** `extractPublicIdFromUrl`: the last path segment with its final `.ext` removed,
      or null (None) when the pattern does not match. */
  function ExtractPublicId(url: string): (r: Option<string>)
    ensures r.Some? ==> r.value != [] && '/' !in r.value
  {
    match LastIndexOf(url, '/')
    case None => None
    case Some(p) =>
      var segment := url[p + 1..];
      match LastIndexOf(segment, '.')
      case None => None
      case Some(d) =>
        if 0 < d && d + 1 < |segment| && AllWord(segment[d + 1..]) then Some(segment[..d]) else None
  }

  /** The pattern can match at one place only, so neither leftmost-first search nor
      greedy backtracking can pick a different group. */
  lemma MatchIsUnique(url: string, p: int, e: int, p': int, e': int)
    requires MatchAt(url, p, e) && MatchAt(url, p', e')
    ensures p == p' && e == e'
  {
    forall p1, e1 | MatchAt(url, p1, e1) ensures LastOf(url, p1, '/') && LastOf(url, e1, '.') {
      NoSlashAfterMatch(url, p1, e1);
    }
  }

  /** Position `q` holds the last `c` of `s`. */
  ghost predicate LastOf(s: string, q: int, c: char)
  {
    0 <= q < |s| && s[q] == c && forall j :: q < j < |s| ==> s[j] != c
  }

  lemma NoSlashAfterMatch(url: string, p: int, e: int)
    requires MatchAt(url, p, e)
    ensures LastOf(url, p, '/') && LastOf(url, e, '.')
  {
    forall j | e < j < |url| ensures IsWordChar(url[j]) {
      assert url[j] == url[e + 1..][j - e - 1];
    }
  }

  /** Where the pattern matches, `ExtractPublicId` answers the captured group. */
  lemma MatchGivesCapture(url: string, p: int, e: int)
    requires MatchAt(url, p, e)
    ensures ExtractPublicId(url) == Some(url[p + 1..e])
  {
    NoSlashAfterMatch(url, p, e);
    assert LastIndexOf(url, '/') == Some(p);
    var segment := url[p + 1..];
    var d := e - p - 1;
    assert segment[d] == '.';
    forall j | d < j < |segment| ensures segment[j] != '.' {
      assert segment[j] == url[p + 1 + j];
    }
    assert LastIndexOf(segment, '.') == Some(d);
    assert segment[d + 1..] == url[e + 1..];
    assert segment[..d] == url[p + 1..e];
  }

  /** Whatever `ExtractPublicId` answers is the group of a match of the pattern. */
  lemma CaptureIsMatch(url: string) returns (p: int, e: int)
    requires ExtractPublicId(url).Some?
    ensures MatchAt(url, p, e) && ExtractPublicId(url).value == url[p + 1..e]
  {
    p := LastIndexOf(url, '/').value;
    var segment := url[p + 1..];
    var d := LastIndexOf(segment, '.').value;
    e := p + 1 + d;
    assert segment[d + 1..] == url[e + 1..];
    forall i | p < i < e ensures url[i] != '/' {
      assert url[i] == segment[i - p - 1];
    }
    assert segment[..d] == url[p + 1..e];
  }

  /** `ExtractPublicId` is the pattern's capture: it answers the group of a match when
      there is one, and null exactly when the pattern matches nowhere. */
  lemma ExtractIsRegexCapture(url: string)
    ensures forall p, e :: MatchAt(url, p, e) ==> ExtractPublicId(url) == Some(url[p + 1..e])
    ensures ExtractPublicId(url).None? <==> forall p, e :: !MatchAt(url, p, e)
  {
    forall p, e | MatchAt(url, p, e) ensures ExtractPublicId(url) == Some(url[p + 1..e]) {
      MatchGivesCapture(url, p, e);
    }
    if ExtractPublicId(url).Some? {
      var p, e := CaptureIsMatch(url);
    }
  }

  /** Round trip: a path ending in `/<stem>.<ext>` gives back the stem, dots in it and all. */
  lemma ExtractRoundTrip(prefix: string, stem: string, ext: string)
    requires stem != [] && '/' !in stem
    requires ext != [] && AllWord(ext)
    ensures ExtractPublicId(prefix + "/" + stem + "." + ext) == Some(stem)
  {
    var url := prefix + "/" + stem + "." + ext;
    var p, e := |prefix|, |prefix| + 1 + |stem|;
    assert url[p] == '/';
    assert url[e] == '.';
    assert url[e + 1..] == ext;
    forall i | p < i < e ensures url[i] != '/' {
      assert url[i] == stem[i - p - 1];
    }
    assert url[p + 1..e] == stem;
    MatchGivesCapture(url, p, e);
  }

  /** What `cloudinary.uploader.upload` answers: the hosted url, and the duration for a video. */
  datatype Upload = Upload(url: string, duration: real)

  /** What `uploadToCloudinary(filePath)` does: the local paths it hands to the host, the
      local files it unlinks, and what it answers. */
  datatype UploadEffect = UploadEffect(sent: seq<string>, unlinked: seq<string>, answer: Option<Upload>)

  /** `uploadToCloudinary(filePath)`; `remote` is what the upload call yields (None when it
      throws). A falsy path is neither sent nor unlinked and answers null; any other path is
      sent once and its local file unlinked whether the host answers or throws, and the
      answer is the host's. */
  function UploadToCloudinary(filePath: Option<string>, remote: Option<Upload>): (r: UploadEffect)
    ensures r.sent == r.unlinked
    ensures r.sent == [] <==> !Truthy(filePath)
    ensures r.sent != [] ==> r.sent == [filePath.value] && r.answer == remote
    ensures r.answer.Some? ==> r.sent != [] && remote.Some?
  {
    if !Truthy(filePath) then UploadEffect([], [], None)
    else UploadEffect([filePath.value], [filePath.value], remote)
  }

  /** Which remote call `deleteFromCloudinary(url)` makes. */
  datatype DestroyCall = NoCall | Destroy(publicId: string)

  /** `deleteFromCloudinary` returns null without calling the host when the url is falsy or
      yields no public id; otherwise it destroys the url's public id. */
  function DestroyRequest(url: Option<string>): (r: DestroyCall)
    ensures r.NoCall? <==> !Truthy(url) || ExtractPublicId(url.value).None?
    ensures r.Destroy? ==> r.publicId != [] && '/' !in r.publicId
    ensures r.Destroy? ==> Some(r.publicId) == ExtractPublicId(url.value)
  {
    if !Truthy(url) then NoCall
    else match ExtractPublicId(url.value)
      case None => NoCall
      case Some(id) => Destroy(id)
  }
}

=== FILE: comments.dfy ===
/** comment.controller.js: the comment listing of a video with its paging offset, and
    adding and deleting comments. */
module Comments {
  import opened Common
  import opened Gateway
  import opened Entities
  import opened Store

  /** The paging offset handed to the paginator: `page` defaults to 1 and `limit` to 10
      when absent from the query, and the rows of the `page - 1` earlier pages are skipped. */
  function Skip(page: Option<int>, limit: Option<int>): (r: int)
    ensures page.None? ==> r == 0
    ensures page == Some(1) ==> r == 0
    ensures limit.None? && page.Some? ==> r == (page.value - 1) * 10
    ensures (page.None? || page.value >= 1) && (limit.None? || limit.value >= 0) ==> r >= 0
  {
    var p := if page.Some? then page.value else 1;
    var l := if limit.Some? then limit.value else 10;
    (p - 1) * l
  }

  /** Consecutive pages abut: page `p + 1` starts exactly `limit` rows after page `p`, so
      the pages tile the listing without gaps or overlaps. */
  lemma PagesAbut(page: int, limit: Option<int>)
    ensures Skip(Some(page + 1), limit) == Skip(Some(page), limit) + (if limit.Some? then limit.value else 10)
  {
    var l := if limit.Some? then limit.value else 10;
    assert page * l == (page - 1) * l + l;
  }

  /** The comment's owner as the listing projects it: `_id`, `username` and `avatar`. */
  datatype CommentOwner = CommentOwner(id: Id, username: string, avatar: string)

  /** A listed comment: its `owner` id replaced by the flattened owner (absent when no user
      matched); the `ownerDetails` working field is not part of it. */
  datatype CommentRow = CommentRow(id: Id, content: string, video: Id, owner: Option<CommentOwner>)

  /** The owner lookup flattened by `$arrayElemAt: [..., 0]`. */
  function OwnerCard(users: seq<User>, id: Id): (r: Option<CommentOwner>)
    ensures r.Some? <==> exists u :: u in users && u.id == id
    ensures r.Some? ==> r.value.id == id
    ensures r.Some? ==>
      && FirstUser(users, id).Some?
      && r.value.username == FirstUser(users, id).value.username
      && r.value.avatar == FirstUser(users, id).value.avatar
  {
    match FirstUser(users, id)
    case None => None
    case Some(u) => Some(CommentOwner(u.id, u.username, u.avatar))
  }

  function RowOf(c: Comment, users: seq<User>): CommentRow
  {
    CommentRow(c.id, c.content, c.video, OwnerCard(users, c.owner))
  }

  /** The aggregate before paging: the comments on `videoId`, in stored order, each as its row. */
  function VideoComments(comments: seq<Comment>, users: seq<User>, videoId: Id): (r: seq<CommentRow>)
    ensures |r| == Count(comments, CommentVideo, videoId)
    ensures forall i :: 0 <= i < |r| ==> r[i] == RowOf(Select(comments, CommentVideo, videoId)[i], users)
  {
    var found := Select(comments, CommentVideo, videoId);
    seq(|found|, i requires 0 <= i < |found| => RowOf(found[i], users))
  }

  /** The listing holds exactly the video's comments: every row is the row of a stored
      comment on the video, and every stored comment on the video has its row. */
  lemma VideoCommentsSoundComplete(comments: seq<Comment>, users: seq<User>, videoId: Id)
    ensures var r := VideoComments(comments, users, videoId);
      forall i :: 0 <= i < |r| ==> r[i].video == videoId && exists c :: c in comments && r[i] == RowOf(c, users)
    ensures forall c :: c in comments && c.video == videoId ==> RowOf(c, users) in VideoComments(comments, users, videoId)
  {
    var found := Select(comments, CommentVideo, videoId);
    var r := VideoComments(comments, users, videoId);
    forall i | 0 <= i < |r| ensures r[i].video == videoId && exists c :: c in comments && r[i] == RowOf(c, users) {
      var c := found[i];
      assert c in found;
      assert c in comments && r[i] == RowOf(c, users);
    }
    forall c | c in comments && c.video == videoId ensures RowOf(c, users) in r {
      assert c in found;
      var j :| 0 <= j < |found| && found[j] == c;
      assert r[j] == RowOf(c, users);
    }
  }

  /** What `getVideoComments` hands the paginator: the matching rows, the offset and the page size. */
  datatype PageRequest = PageRequest(rows: seq<CommentRow>, skip: int, limit: int)

  /** `getVideoComments`: 401 without a video id; otherwise the listing and its paging request. */
  function GetVideoComments(comments: seq<Comment>, users: seq<User>, videoId: Option<Id>,
                            page: Option<int>, limit: Option<int>): (r: Result<PageRequest>)
    ensures r.Failure? <==> videoId.None?
    ensures r.Failure? ==> r.status == Unauthorized
    ensures r.Success? ==>
      && r.value.rows == VideoComments(comments, users, videoId.value)
      && r.value.skip == Skip(page, limit)
      && r.value.limit == (if limit.Some? then limit.value else 10)
  {
    if videoId.None? then Failure(Unauthorized)
    else Success(PageRequest(VideoComments(comments, users, videoId.value), Skip(page, limit),
                             if limit.Some? then limit.value else 10))
  }

  /** `addComment`. Checks, in order, each failing with 401 before any write: a video id is
      given, the content is non-empty, the user exists, the video exists. Then exactly one
      comment `{owner, video, content}` is appended and the others stay as they were. */
  method AddComment(db: Db, videoId: Option<Id>, content: Option<string>, userId: Id) returns (r: Result<Comment>)
    requires db.Valid()
    modifies db`comments, db`nextId
    ensures db.Valid()
    ensures r.Failure? ==> r.status == Unauthorized && db.comments == old(db.comments) && db.nextId == old(db.nextId)
    ensures r.Success? <==>
      && videoId.Some? && Truthy(content)
      && FirstIndex(db.users, UserId, userId).Some?
      && FirstIndex(db.videos, VideoId, videoId.value).Some?
    ensures r.Success? ==>
      && r.value == Comment(old(db.nextId), content.value, videoId.value, userId)
      && db.comments == old(db.comments) + [r.value]
      && db.nextId == old(db.nextId) + 1
  {
    if videoId.None? {
      return Failure(Unauthorized);
    }
    if !Truthy(content) {
      return Failure(Unauthorized);
    }
    var user := Find(db.users, UserId, userId);
    if user.None? {
      return Failure(Unauthorized);
    }
    var video := Find(db.videos, VideoId, videoId.value);
    if video.None? {
      return Failure(Unauthorized);
    }
    var comment := db.InsertComment(userId, videoId.value, content.value);
    return Success(comment);
  }

  /** `deleteComment`: 401 without a comment id; otherwise the comment with that id is gone,
      every other comment stays in order, and the answer is a success even when no comment
      had that id. */
  method DeleteComment(db: Db, commentId: Option<Id>) returns (r: Result<()>)
    requires db.Valid()
    modifies db`comments
    ensures db.Valid()
    ensures commentId.None? ==> r == Failure(Unauthorized) && db.comments == old(db.comments)
    ensures commentId.Some? ==> r == Success(()) && db.comments == Without(old(db.comments), CommentId, commentId.value)
  {
    if commentId.None? {
      return Failure(Unauthorized);
    }
    RemoveByIdIsWithout(db.comments, CommentId, db.nextId, commentId.value);
    WellKeyedRemove(db.comments, CommentId, db.nextId, CommentId, commentId.value);
    db.comments := RemoveFirst(db.comments, CommentId, commentId.value);
    return Success(());
  }

  /** Deleting by id leaves no comment with that id and keeps every other comment. */
  lemma DeletedCommentIsGone(comments: seq<Comment>, id: Id)
    ensures forall c :: c in Without(comments, CommentId, id) ==> c.id != id && c in comments
    ensures forall c :: c in comments && c.id != id ==> c in Without(comments, CommentId, id)
    ensures Count(Without(comments, CommentId, id), CommentId, id) == 0
  {
    var rest := Without(comments, CommentId, id);
    CountZero(rest, CommentId, id);
  }
}

=== FILE: common.dfy ===
/** Values shared by every request handler: opaque document ids, optional
    request fields and the outcome of a handler. */
module Common {

  /** A document id. Ids are opaque: they are only compared and drawn fresh. */
  type Id = nat

  datatype Option<T> = None | Some(value: T)

  /** The HTTP statuses the handlers fail with. */
  const BadRequest: nat := 400
  const Unauthorized: nat := 401
  const NotFound: nat := 404
  const Conflict: nat := 409
  const ServerError: nat := 500

  /** What a handler answers: a payload, or the status of the error it throws. */
  datatype Result<T> = Success(value: T) | Failure(status: nat)

  /** JavaScript truthiness of an optional request string: absent and "" are falsy. */
  predicate Truthy(s: Option<string>)
  {
    s.Some? && s.value != ""
  }
}

=== FILE: dashboard.dfy ===
/** dashboard.controller.js: the `getChannelStats` aggregation over the requesting
    user's subscriptions, their channel user, its videos and their likes. */
module Dashboard {
  import opened Common
  import opened Gateway
  import opened Entities

  /** `$sum: "$channelVideos.views"` over `vs`. */
  function SumViews(vs: seq<Video>): nat
  {
    if vs == [] then 0 else vs[0].views + SumViews(vs[1..])
  }

  /** `$sum: "$channelVideos.likeCount"` over `vs`, each video's like count being the size
      of its likes lookup. */
  function SumLikes(vs: seq<Video>, likes: seq<Like>): nat
  {
    if vs == [] then 0 else Count(likes, LikedVideo, vs[0].id) + SumLikes(vs[1..], likes)
  }

  /** The document the inner `$group: {_id: null}` produces. */
  datatype Totals = Totals(totalViews: nat, totalLikes: nat)

  /** The `userChannel` lookup of one subscription to `channel`: every user with that id
      contributes each of the channel's videos to one `$unwind`, and the `$group` folds them
      into a single totals document. Without a video (or without the user) the `$unwind`
      leaves nothing to group and the lookup is empty. With distinct ids the document holds
      the views of the channel's videos and the number of likes on them. */
  function ChannelTotals(users: seq<User>, videos: seq<Video>, likes: seq<Like>, channel: Id): (r: seq<Totals>)
    ensures |r| <= 1
    ensures r == [] <==> Count(users, UserId, channel) == 0 || Count(videos, OwnerOf, channel) == 0
    ensures forall bound :: WellKeyed(users, UserId, bound) && r != [] ==>
      r[0].totalViews == SumViews(Select(videos, OwnerOf, channel))
    ensures forall bound :: WellKeyed(users, UserId, bound) && WellKeyed(videos, VideoId, bound) && r != [] ==>
      r[0].totalLikes == LikesOn(likes, IdsOf(Select(videos, OwnerOf, channel)))
  {
    var owners := Count(users, UserId, channel);
    var owned := Select(videos, OwnerOf, channel);
    forall bound | WellKeyed(users, UserId, bound) && owners != 0
      ensures owners == 1
    {
      IdCountAtMostOne(users, UserId, bound, channel);
    }
    forall bound | WellKeyed(videos, VideoId, bound)
      ensures SumLikes(owned, likes) == LikesOn(likes, IdsOf(owned))
    {
      FilterKeepsWellKeyed(videos, VideoId, bound, OwnerOf, channel, true);
      SumLikesCountsEachLikeOnce(owned, likes, bound);
    }
    if owners == 0 || owned == [] then []
    else [Totals(owners * SumViews(owned), owners * SumLikes(owned, likes))]
  }

  /** An output row: the subscription's `_id`, the `$sum: 1` of its group and the channel
      totals; `userChannel` is projected away. */
  datatype StatsRow = StatsRow(id: Id, totalSubscribers: nat, totalViews: nat, totalLikes: nat)

  /** `$group: {_id: "$_id", totalSubscribers: {$sum: 1}}` over the unwound subscriptions
      `ms` (each carrying totals `t`): one row per id not in `seen`, in order of first
      appearance, counting the documents of `all` with that id. */
  function GroupById(ms: seq<Subscription>, seen: set<Id>, all: seq<Subscription>, t: Totals): (r: seq<StatsRow>)
    ensures |r| <= |ms|
    decreases |ms|
  {
    if ms == [] then []
    else if ms[0].id in seen then GroupById(ms[1..], seen, all, t)
    else
      [StatsRow(ms[0].id, Count(all, SubscriptionId, ms[0].id), t.totalViews, t.totalLikes)]
      + GroupById(ms[1..], seen + {ms[0].id}, all, t)
  }

  /** Every group row is keyed by an unseen id of some document and counts that id in `all`. */
  lemma {:induction false} GroupRowsSound(ms: seq<Subscription>, seen: set<Id>, all: seq<Subscription>, t: Totals)
    ensures forall row :: row in GroupById(ms, seen, all, t) ==>
      && row.id !in seen
      && (exists s :: s in ms && s.id == row.id)
      && row == StatsRow(row.id, Count(all, SubscriptionId, row.id), t.totalViews, t.totalLikes)
    decreases |ms|
  {
    if ms != [] {
      assert forall s :: s in ms[1..] ==> s in ms;
      if ms[0].id in seen {
        GroupRowsSound(ms[1..], seen, all, t);
      } else {
        GroupRowsSound(ms[1..], seen + {ms[0].id}, all, t);
      }
    }
  }

  /** Every document whose id is not yet seen gets a row. */
  lemma {:induction false} GroupRowsComplete(ms: seq<Subscription>, seen: set<Id>, all: seq<Subscription>, t: Totals)
    ensures forall s :: s in ms && s.id !in seen ==> exists row :: row in GroupById(ms, seen, all, t) && row.id == s.id
    decreases |ms|
  {
    if ms != [] {
      var r := GroupById(ms, seen, all, t);
      assert forall s :: s in ms ==> s == ms[0] || s in ms[1..];
      if ms[0].id in seen {
        GroupRowsComplete(ms[1..], seen, all, t);
      } else {
        var rest := GroupById(ms[1..], seen + {ms[0].id}, all, t);
        GroupRowsComplete(ms[1..], seen + {ms[0].id}, all, t);
        assert r[0].id == ms[0].id;
        assert forall row :: row in rest ==> row in r;
      }
    }
  }

  /** No two rows share an id. */
  predicate DistinctIds(rows: seq<StatsRow>)
  {
    forall i, j :: 0 <= i < j < |rows| ==> rows[i].id != rows[j].id
  }

  /** Grouping never yields two rows for one id. */
  lemma {:induction false} GroupIdsDistinct(ms: seq<Subscription>, seen: set<Id>, all: seq<Subscription>, t: Totals)
    ensures DistinctIds(GroupById(ms, seen, all, t))
    decreases |ms|
  {
    if ms != [] {
      if ms[0].id in seen {
        GroupIdsDistinct(ms[1..], seen, all, t);
      } else {
        var rest := GroupById(ms[1..], seen + {ms[0].id}, all, t);
        GroupIdsDistinct(ms[1..], seen + {ms[0].id}, all, t);
        GroupRowsSound(ms[1..], seen + {ms[0].id}, all, t);
        var r := GroupById(ms, seen, all, t);
        forall i, j | 0 <= i < j < |r| ensures r[i].id != r[j].id {
          assert r[j] == rest[j - 1] && r[j] in rest;
          if i > 0 {
            assert r[i] == rest[i - 1];
          }
        }
        assert DistinctIds(r);
      }
    }
  }

  /** `getChannelStats` for the requesting user `userId`. */
  function ChannelStats(subs: seq<Subscription>, users: seq<User>, videos: seq<Video>, likes: seq<Like>,
                        userId: Id): (r: seq<StatsRow>)
    ensures Count(subs, ChannelOf, userId) == 0 ==> r == []
    ensures ChannelTotals(users, videos, likes, userId) == [] ==> r == []
    ensures forall row :: row in r ==>
      && (exists s :: s in subs && s.channel == userId && s.id == row.id)
      && row.totalSubscribers == Count(Select(subs, ChannelOf, userId), SubscriptionId, row.id)
      && Totals(row.totalViews, row.totalLikes) == ChannelTotals(users, videos, likes, userId)[0]
    ensures ChannelTotals(users, videos, likes, userId) != [] ==>
      forall s :: s in subs && s.channel == userId ==> exists row :: row in r && row.id == s.id
    ensures DistinctIds(r)
  {
    var matched := Select(subs, ChannelOf, userId);
    var totals := ChannelTotals(users, videos, likes, userId);
    if totals == [] then []
    else
      GroupRowsSound(matched, {}, matched, totals[0]);
      GroupRowsComplete(matched, {}, matched, totals[0]);
      GroupIdsDistinct(matched, {}, matched, totals[0]);
      GroupById(matched, {}, matched, totals[0])
  }

  /** With distinct ids (as the store guarantees), the result has exactly one row per
      subscription to the user, each counting one subscriber and carrying the plain sums of
      views and likes over the user's videos, provided the user exists and owns a video. */
  lemma StatsWithDistinctIds(subs: seq<Subscription>, users: seq<User>, videos: seq<Video>, likes: seq<Like>,
                             userId: Id, bound: nat)
    requires WellKeyed(subs, SubscriptionId, bound) && WellKeyed(users, UserId, bound)
    ensures
      var r := ChannelStats(subs, users, videos, likes, userId);
      var owned := Select(videos, OwnerOf, userId);
      && |r| == (if FirstUser(users, userId).Some? && owned != [] then Count(subs, ChannelOf, userId) else 0)
      && forall row :: row in r ==>
           row.totalSubscribers == 1 && row.totalViews == SumViews(owned) && row.totalLikes == SumLikes(owned, likes)
  {
    var r := ChannelStats(subs, users, videos, likes, userId);
    var owned := Select(videos, OwnerOf, userId);
    var matched := Select(subs, ChannelOf, userId);
    IdCountAtMostOne(users, UserId, bound, userId);
    CountZero(users, UserId, userId);
    FilterKeepsWellKeyed(subs, SubscriptionId, bound, ChannelOf, userId, true);
    if FirstUser(users, userId).Some? && owned != [] {
      assert FirstUser(users, userId).value in users;
      assert Count(users, UserId, userId) == 1;
      GroupCoversAll(matched, {}, matched, bound, ChannelTotals(users, videos, likes, userId)[0]);
      forall row | row in r ensures row.totalSubscribers == 1 {
        var s :| s in subs && s.channel == userId && s.id == row.id;
        assert s in matched;
        IdCountAtMostOne(matched, SubscriptionId, bound, row.id);
      }
    }
  }

  /** With distinct ids, none of them already seen, grouping by id keeps every document. */
  lemma {:induction false} GroupCoversAll(ms: seq<Subscription>, seen: set<Id>, all: seq<Subscription>, bound: nat, t: Totals)
    requires WellKeyed(ms, SubscriptionId, bound)
    requires forall s :: s in ms ==> s.id !in seen
    ensures |GroupById(ms, seen, all, t)| == |ms|
    decreases |ms|
  {
    if ms != [] {
      var tail := ms[1..];
      assert WellKeyed(tail, SubscriptionId, bound) by {
        forall p, q | 0 <= p < q < |tail| ensures tail[p].id != tail[q].id {
          assert tail[p] == ms[p + 1] && tail[q] == ms[q + 1];
        }
      }
      forall s | s in tail ensures s.id !in seen + {ms[0].id} {
        var m :| 0 <= m < |tail| && tail[m] == s;
        assert tail[m] == ms[m + 1];
      }
      GroupCoversAll(tail, seen + {ms[0].id}, all, bound, t);
    }
  }

  /** The ids of `vs`. */
  function IdsOf(vs: seq<Video>): set<Id>
  {
    set v | v in vs :: v.id
  }

  /** How many likes reference a video whose id is in `ids`. */
  function LikesOn(likes: seq<Like>, ids: set<Id>): nat
  {
    if likes == [] then 0 else (if likes[0].video in ids then 1 else 0) + LikesOn(likes[1..], ids)
  }

  /** Adding one more video id adds that video's likes. */
  lemma {:induction false} LikesOnAdd(likes: seq<Like>, ids: set<Id>, a: Id)
    requires a !in ids
    ensures LikesOn(likes, ids + {a}) == Count(likes, LikedVideo, a) + LikesOn(likes, ids)
  {
    if likes != [] {
      LikesOnAdd(likes[1..], ids, a);
      assert Select(likes, LikedVideo, a) ==
        (if likes[0].video == a then [likes[0]] else []) + Select(likes[1..], LikedVideo, a);
    }
  }

  /** With distinct video ids, `totalLikes` is the number of likes on the channel's videos:
      no like is counted twice. */
  lemma {:induction false} SumLikesCountsEachLikeOnce(vs: seq<Video>, likes: seq<Like>, bound: nat)
    requires WellKeyed(vs, VideoId, bound)
    ensures SumLikes(vs, likes) == LikesOn(likes, IdsOf(vs))
  {
    if vs == [] {
      NoLikesOnNothing(likes, IdsOf(vs));
    } else {
      var tail := vs[1..];
      assert WellKeyed(tail, VideoId, bound) by {
        forall p, q | 0 <= p < q < |tail| ensures tail[p].id != tail[q].id {
          assert tail[p] == vs[p + 1] && tail[q] == vs[q + 1];
        }
      }
      SumLikesCountsEachLikeOnce(tail, likes, bound);
      assert vs[0].id !in IdsOf(tail) by {
        forall v | v in tail ensures v.id != vs[0].id {
          var m :| 0 <= m < |tail| && tail[m] == v;
          assert tail[m] == vs[m + 1];
        }
      }
      assert IdsOf(vs) == IdsOf(tail) + {vs[0].id} by {
        assert forall v :: v in vs <==> v == vs[0] || v in tail;
      }
      LikesOnAdd(likes, IdsOf(tail), vs[0].id);
    }
  }

  lemma {:induction false} NoLikesOnNothing(likes: seq<Like>, ids: set<Id>)
    requires ids == {}
    ensures LikesOn(likes, ids) == 0
  {
    if likes != [] {
      NoLikesOnNothing(likes[1..], ids);
    }
  }

  /** The channel's figures as the endpoint names them: how many subscriptions it has and
      the sums over its videos (zero when it owns none). */
  datatype ChannelSummary = ChannelSummary(totalSubscribers: nat, totalViews: nat, totalLikes: nat)

  /** The stats grouped per channel: a single summary, present whether or not the channel
      owns a video. */
  function ChannelSummaryOf(subs: seq<Subscription>, videos: seq<Video>, likes: seq<Like>, userId: Id): (r: ChannelSummary)
    ensures r.totalSubscribers == |Select(subs, ChannelOf, userId)|
    ensures r.totalViews == SumViews(Select(videos, OwnerOf, userId))
    ensures Count(videos, OwnerOf, userId) == 0 ==> r.totalViews == 0 && r.totalLikes == 0
    ensures forall bound :: WellKeyed(videos, VideoId, bound) ==>
      r.totalLikes == LikesOn(likes, IdsOf(Select(videos, OwnerOf, userId)))
  {
    var owned := Select(videos, OwnerOf, userId);
    forall bound | WellKeyed(videos, VideoId, bound)
      ensures SumLikes(owned, likes) == LikesOn(likes, IdsOf(owned))
    {
      FilterKeepsWellKeyed(videos, VideoId, bound, OwnerOf, userId, true);
      SumLikesCountsEachLikeOnce(owned, likes, bound);
    }
    ChannelSummary(Count(subs, ChannelOf, userId), SumViews(owned), SumLikes(owned, likes))
  }

  /** Where the pipeline answers at all (the user exists and owns a video) and ids are
      distinct, its rows split the summary: one row per subscriber, each counting one, so
      the row count is the summary's subscriber total and each row repeats its sums. */
  lemma RowsSplitSummary(subs: seq<Subscription>, users: seq<User>, videos: seq<Video>, likes: seq<Like>,
                         userId: Id, bound: nat)
    requires WellKeyed(subs, SubscriptionId, bound) && WellKeyed(users, UserId, bound)
    requires FirstUser(users, userId).Some? && Count(videos, OwnerOf, userId) > 0
    ensures
      var r := ChannelStats(subs, users, videos, likes, userId);
      var summary := ChannelSummaryOf(subs, videos, likes, userId);
      && |r| == summary.totalSubscribers
      && forall row :: row in r ==>
           row.totalSubscribers == 1 && row.totalViews == summary.totalViews && row.totalLikes == summary.totalLikes
  {
    StatsWithDistinctIds(subs, users, videos, likes, userId, bound);
  }

  // The sample channel of the finding: user 9, with one video of 3 views and subscriptions
  // from users 1 and 2.
  const sampleChannel := User(9, "chan", "c@example.com", "Chan", "c.png", "", "pw", None, [])
  const sampleVideo := Video(5, "v.mp4", "t.png", "T", "D", 1.0, 3, true, 9, 0)
  const sampleSubs := [Subscription(0, 1, 9), Subscription(1, 2, 9)]

  /** As written, a channel with two subscribers and one video gets two rows each reporting
      one subscriber, and a channel with a subscriber but no video gets no row at all. */
  lemma StatsSplitPerSubscriber()
    ensures ChannelStats(sampleSubs, [sampleChannel], [sampleVideo], [], 9) == [StatsRow(0, 1, 3, 0), StatsRow(1, 1, 3, 0)]
    ensures ChannelSummaryOf(sampleSubs, [sampleVideo], [], 9) == ChannelSummary(2, 3, 0)
    ensures ChannelStats(sampleSubs, [sampleChannel], [], [], 9) == []
    ensures ChannelSummaryOf(sampleSubs, [], [], 9) == ChannelSummary(2, 0, 0)
  {
    SampleSelections();
    SampleTotals();
    SampleGroups();
  }

  lemma SampleSelections()
    ensures Select(sampleSubs, ChannelOf, 9) == sampleSubs
    ensures Count(sampleSubs, ChannelOf, 9) == 2
    ensures Select([sampleVideo], OwnerOf, 9) == [sampleVideo]
    ensures Count([sampleChannel], UserId, 9) == 1
  {
    assert sampleSubs[1..] == [Subscription(1, 2, 9)];
    assert [sampleVideo][1..] == [];
    assert [sampleChannel][1..] == [];
  }

  lemma SampleTotals()
    ensures ChannelTotals([sampleChannel], [sampleVideo], [], 9) == [Totals(3, 0)]
    ensures SumViews([sampleVideo]) == 3 && SumLikes([sampleVideo], []) == 0
  {
    SampleSelections();
    assert [sampleVideo][1..] == [];
    assert SumViews([sampleVideo]) == 3 && SumLikes([sampleVideo], []) == 0;
    assert Count([sampleChannel], UserId, 9) * 3 == 3;
  }

  lemma SampleGroups()
    ensures GroupById(sampleSubs, {}, sampleSubs, Totals(3, 0)) == [StatsRow(0, 1, 3, 0), StatsRow(1, 1, 3, 0)]
  {
    var t := Totals(3, 0);
    assert sampleSubs[1..] == [Subscription(1, 2, 9)];
    assert Count(sampleSubs, SubscriptionId, 0) == 1 && Count(sampleSubs, SubscriptionId, 1) == 1;
    assert GroupById([Subscription(1, 2, 9)], {0}, sampleSubs, t) == [StatsRow(1, 1, 3, 0)];
  }
}

=== FILE: entities.dfy ===
/** The five collections' records, with the key functions the queries use. */
module Entities {
  import opened Common
  import opened Gateway

  /** One entry of a user's watch history. */
  datatype WatchEntry = WatchEntry(video: Id, watchedAt: int)

  /** A user document. `password` stands for the stored credential; hashing is not modelled. */
  datatype User = User(
    id: Id,
    username: string,
    email: string,
    fullName: string,
    avatar: string,
    coverImage: string,
    password: string,
    refreshToken: Option<string>,
    watchHistory: seq<WatchEntry>)

  datatype Video = Video(
    id: Id,
    videoFile: string,
    thumbnail: string,
    title: string,
    description: string,
    duration: real,
    views: nat,
    isPublished: bool,
    owner: Id,
    createdAt: int)

  datatype Comment = Comment(id: Id, content: string, video: Id, owner: Id)

  /** A user liking a video. */
  datatype Like = Like(id: Id, video: Id, likedBy: Id)

  /** A subscriber following a channel (both users). */
  datatype Subscription = Subscription(id: Id, subscriber: Id, channel: Id)

  // The `_id` of each kind of document.
  function UserId(u: User): Id { u.id }
  function VideoId(v: Video): Id { v.id }
  function CommentId(c: Comment): Id { c.id }
  function LikeId(l: Like): Id { l.id }
  function SubscriptionId(s: Subscription): Id { s.id }

  // The foreign keys the handlers query on.
  function LikePair(l: Like): (Id, Id) { (l.video, l.likedBy) }
  function LikedVideo(l: Like): Id { l.video }
  function Liker(l: Like): Id { l.likedBy }
  function SubscriptionPair(s: Subscription): (Id, Id) { (s.subscriber, s.channel) }
  function ChannelOf(s: Subscription): Id { s.channel }
  function OwnerOf(v: Video): Id { v.owner }
  function CommentVideo(c: Comment): Id { c.video }

  /** `$arrayElemAt: [<users looked up by id>, 0]`: the first user with that id, absent when none. */
  function FirstUser(users: seq<User>, id: Id): (r: Option<User>)
    ensures r.Some? ==> r.value in users && r.value.id == id
    ensures r.None? ==> forall u :: u in users ==> u.id != id
  {
    match FirstIndex(users, UserId, id)
    case None => None
    case Some(i) => Some(users[i])
  }
}

=== FILE: gateway.dfy ===
/** The persistence gateway. A collection is a sequence of records in stored
    order; a query names a key function and the value the key must have. */
module Gateway {
  import opened Common

  /** Where `findOne({field: k})` and `findById(k)` land: the first row whose key is `k`. */
  function FirstIndex<T, K(==)>(rows: seq<T>, key: T -> K, k: K): (r: Option<nat>)
    ensures r.Some? ==> r.value < |rows| && key(rows[r.value]) == k
    ensures r.Some? ==> forall j :: 0 <= j < r.value ==> key(rows[j]) != k
    ensures r.None? ==> forall j :: 0 <= j < |rows| ==> key(rows[j]) != k
  {
    if rows == [] then None
    else if key(rows[0]) == k then Some(0)
    else match FirstIndex(rows[1..], key, k)
      case None => None
      case Some(i) => Some(i + 1)
  }

  /** The lookup as the store runs it: a scan in stored order. */
  method Find<T, K(==)>(rows: seq<T>, key: T -> K, k: K) returns (r: Option<nat>)
    ensures r == FirstIndex(rows, key, k)
  {
    var i := 0;
    while i < |rows|
      invariant 0 <= i <= |rows|
      invariant forall j :: 0 <= j < i ==> key(rows[j]) != k
    {
      if key(rows[i]) == k {
        return Some(i);
      }
      i := i + 1;
    }
    return None;
  }

  /** The rows whose key is `k` (when `keep`) or is not `k` (otherwise), in stored order. */
  function Filter<T, K(==)>(rows: seq<T>, key: T -> K, k: K, keep: bool): (r: seq<T>)
    ensures |r| <= |rows|
    ensures forall x :: x in r ==> x in rows && (key(x) == k) == keep
    ensures forall x :: x in rows && (key(x) == k) == keep ==> x in r
  {
    if rows == [] then []
    else (if (key(rows[0]) == k) == keep then [rows[0]] else []) + Filter(rows[1..], key, k, keep)
  }

  /** `find({field: k})`. */
  function Select<T, K(==)>(rows: seq<T>, key: T -> K, k: K): seq<T>
  {
    Filter(rows, key, k, true)
  }

  /** Every row whose key is not `k`: the part of a collection a write on key `k` must leave alone. */
  function Without<T, K(==)>(rows: seq<T>, key: T -> K, k: K): seq<T>
  {
    Filter(rows, key, k, false)
  }

  /** How many rows have key `k` (the `$size` of a `$lookup` on that key). */
  function Count<T, K(==)>(rows: seq<T>, key: T -> K, k: K): nat
  {
    |Select(rows, key, k)|
  }

  lemma {:induction false} FilterConcat<T, K>(a: seq<T>, b: seq<T>, key: T -> K, k: K, keep: bool)
    ensures Filter(a + b, key, k, keep) == Filter(a, key, k, keep) + Filter(b, key, k, keep)
  {
    if a == [] {
      assert a + b == b;
    } else {
      var head := if (key(a[0]) == k) == keep then [a[0]] else [];
      assert (a + b)[0] == a[0];
      assert (a + b)[1..] == a[1..] + b;
      FilterConcat(a[1..], b, key, k, keep);
      calc {
        Filter(a + b, key, k, keep);
        head + Filter(a[1..] + b, key, k, keep);
        head + (Filter(a[1..], key, k, keep) + Filter(b, key, k, keep));
        (head + Filter(a[1..], key, k, keep)) + Filter(b, key, k, keep);
        Filter(a, key, k, keep) + Filter(b, key, k, keep);
      }
    }
  }

  /** A row is found exactly when some row has the key. */
  lemma CountZero<T, K>(rows: seq<T>, key: T -> K, k: K)
    ensures Count(rows, key, k) == 0 <==> FirstIndex(rows, key, k).None?
  {
    if FirstIndex(rows, key, k).Some? {
      assert rows[FirstIndex(rows, key, k).value] in Select(rows, key, k);
    }
  }

  /** Filtering around position `i`: the part before, the row itself, the part after. */
  lemma FilterAround<T, K>(rows: seq<T>, i: nat, key: T -> K, k: K, keep: bool)
    requires i < |rows|
    ensures Filter(rows, key, k, keep) ==
      Filter(rows[..i], key, k, keep) + Filter([rows[i]], key, k, keep) + Filter(rows[i + 1..], key, k, keep)
    ensures Filter(rows[..i] + rows[i + 1..], key, k, keep) ==
      Filter(rows[..i], key, k, keep) + Filter(rows[i + 1..], key, k, keep)
  {
    var pre, post := rows[..i], rows[i + 1..];
    assert rows == pre + [rows[i]] + post;
    FilterConcat(pre + [rows[i]], post, key, k, keep);
    FilterConcat(pre, [rows[i]], key, k, keep);
    FilterConcat(pre, post, key, k, keep);
  }

  /** `find` on a key no row has returns nothing. */
  lemma {:induction false} NoMatchSelectsNothing<T, K>(rows: seq<T>, key: T -> K, k: K)
    requires forall j :: 0 <= j < |rows| ==> key(rows[j]) != k
    ensures Filter(rows, key, k, true) == []
  {
    if rows != [] {
      NoMatchSelectsNothing(rows[1..], key, k);
    }
  }

  /** The first row `find` returns is the row `findOne` finds. */
  lemma SelectHeadIsFirst<T, K>(rows: seq<T>, key: T -> K, k: K)
    ensures FirstIndex(rows, key, k).Some? ==>
      Select(rows, key, k) != [] && Select(rows, key, k)[0] == rows[FirstIndex(rows, key, k).value]
  {
    if FirstIndex(rows, key, k).None? {
      return;
    }
    var i := FirstIndex(rows, key, k).value;
    FilterAround(rows, i, key, k, true);
    var pre := Filter(rows[..i], key, k, true);
    NoMatchSelectsNothing(rows[..i], key, k);
    assert [rows[i]][1..] == [];
    assert Filter([rows[i]], key, k, true) == [rows[i]];
  }

  /** `findByIdAndDelete` of the row a lookup on key `k` found; nothing when none was found. */
  function RemoveFirst<T, K(==)>(rows: seq<T>, key: T -> K, k: K): seq<T>
  {
    match FirstIndex(rows, key, k)
    case None => rows
    case Some(i) => rows[..i] + rows[i + 1..]
  }

  /** Removing the found row lowers the count of key `k` by one (when there was one)
      and leaves the count of every other key as it was. */
  lemma RemoveFirstCount<T, K>(rows: seq<T>, key: T -> K, k: K, k': K)
    ensures Count(RemoveFirst(rows, key, k), key, k') ==
      if k' == k && Count(rows, key, k) > 0 then Count(rows, key, k) - 1 else Count(rows, key, k')
  {
    CountZero(rows, key, k);
    match FirstIndex(rows, key, k)
    case None =>
    case Some(i) =>
      FilterAround(rows, i, key, k', true);
  }

  /** Removing the found row leaves every row without key `k` in place. */
  lemma RemoveFirstKeepsOthers<T, K>(rows: seq<T>, key: T -> K, k: K)
    ensures Without(RemoveFirst(rows, key, k), key, k) == Without(rows, key, k)
  {
    match FirstIndex(rows, key, k)
    case None =>
    case Some(i) =>
      FilterAround(rows, i, key, k, false);
  }

  /** Stored ids are pairwise distinct and all below `bound`, the next id the store hands out. */
  ghost predicate WellKeyed<T>(rows: seq<T>, id: T -> Id, bound: nat)
  {
    && (forall i :: 0 <= i < |rows| ==> id(rows[i]) < bound)
    && (forall i, j :: 0 <= i < j < |rows| ==> id(rows[i]) != id(rows[j]))
  }

  lemma WellKeyedAppend<T>(rows: seq<T>, id: T -> Id, bound: nat, x: T)
    requires WellKeyed(rows, id, bound) && id(x) == bound
    ensures WellKeyed(rows + [x], id, bound + 1)
  {
  }

  lemma WellKeyedGrow<T>(rows: seq<T>, id: T -> Id, bound: nat, bound': nat)
    requires WellKeyed(rows, id, bound) && bound <= bound'
    ensures WellKeyed(rows, id, bound')
  {
  }

  lemma WellKeyedUpdate<T>(rows: seq<T>, id: T -> Id, bound: nat, i: nat, x: T)
    requires WellKeyed(rows, id, bound) && i < |rows| && id(x) == id(rows[i])
    ensures WellKeyed(rows[i := x], id, bound)
  {
    var s := rows[i := x];
    forall p, q | 0 <= p < q < |s| ensures id(s[p]) != id(s[q]) {
      assert id(s[p]) == id(rows[p]) && id(s[q]) == id(rows[q]);
    }
  }

  lemma WellKeyedRemove<T, K>(rows: seq<T>, id: T -> Id, bound: nat, key: T -> K, k: K)
    requires WellKeyed(rows, id, bound)
    ensures WellKeyed(RemoveFirst(rows, key, k), id, bound)
  {
    match FirstIndex(rows, key, k)
    case None =>
    case Some(i) =>
      var s := rows[..i] + rows[i + 1..];
      forall p | 0 <= p < |s| ensures s[p] == rows[if p < i then p else p + 1] {
      }
  }

  /** With distinct ids, deleting the row found by id deletes every row with that id. */
  lemma {:induction false} RemoveByIdIsWithout<T>(rows: seq<T>, id: T -> Id, bound: nat, k: Id)
    requires WellKeyed(rows, id, bound)
    ensures RemoveFirst(rows, id, k) == Without(rows, id, k)
  {
    var found := FirstIndex(rows, id, k);
    if found.None? {
      NoKeyWithout(rows, id, k);
    } else {
      var i := found.value;
      forall j | 0 <= j < |rows| && j != i ensures id(rows[j]) != k {
        if j < i {
          assert id(rows[j]) != id(rows[i]);
        } else {
          assert id(rows[i]) != id(rows[j]);
        }
      }
      RemoveOnlyMatch(rows, id, k, i);
    }
  }

  /** Deleting the one row with key `k` is excluding key `k`. */
  lemma {:induction false} RemoveOnlyMatch<T, K>(rows: seq<T>, key: T -> K, k: K, i: nat)
    requires i < |rows| && key(rows[i]) == k
    requires forall j :: 0 <= j < |rows| && j != i ==> key(rows[j]) != k
    ensures rows[..i] + rows[i + 1..] == Without(rows, key, k)
  {
    var pre, post := rows[..i], rows[i + 1..];
    FilterAround(rows, i, key, k, false);
    assert Filter([rows[i]], key, k, false) == [] by {
      assert [rows[i]][1..] == [];
    }
    forall j | 0 <= j < |pre| ensures key(pre[j]) != k {
      assert pre[j] == rows[j];
    }
    forall j | 0 <= j < |post| ensures key(post[j]) != k {
      assert post[j] == rows[i + 1 + j];
    }
    NoKeyWithout(pre, key, k);
    NoKeyWithout(post, key, k);
    calc {
      Without(rows, key, k);
      Filter(pre, key, k, false) + Filter([rows[i]], key, k, false) + Filter(post, key, k, false);
      pre + [] + post;
      { assert pre + [] == pre; }
      pre + post;
    }
  }

  /** When no row has key `k`, excluding key `k` leaves the collection as it is. */
  lemma {:induction false} NoKeyWithout<T, K>(rows: seq<T>, key: T -> K, k: K)
    requires forall j :: 0 <= j < |rows| ==> key(rows[j]) != k
    ensures Without(rows, key, k) == rows
  {
    if rows != [] {
      NoKeyWithout(rows[1..], key, k);
      assert rows == [rows[0]] + rows[1..];
    }
  }

  /** A lookup sees only keys: collections with the same key at every position answer alike. */
  lemma FirstIndexSameKeys<T, K>(a: seq<T>, b: seq<T>, key: T -> K, k: K)
    requires |a| == |b| && forall j :: 0 <= j < |a| ==> key(a[j]) == key(b[j])
    ensures FirstIndex(a, key, k) == FirstIndex(b, key, k)
  {
    var fa, fb := FirstIndex(a, key, k), FirstIndex(b, key, k);
    if fa.Some? && fb.Some? {
      assert key(b[fa.value]) == k && key(a[fb.value]) == k;
    }
  }

  /** With distinct ids, looking a stored row up by its own id finds that very row. */
  lemma FirstIndexOfStoredId<T>(rows: seq<T>, id: T -> Id, bound: nat, i: nat)
    requires WellKeyed(rows, id, bound) && i < |rows|
    ensures FirstIndex(rows, id, id(rows[i])) == Some(i)
  {
  }

  /** Distinct ids stay distinct in any filtered part of a collection. */
  lemma {:induction false} FilterKeepsWellKeyed<T, K>(rows: seq<T>, id: T -> Id, bound: nat, key: T -> K, k: K, keep: bool)
    requires WellKeyed(rows, id, bound)
    ensures WellKeyed(Filter(rows, key, k, keep), id, bound)
  {
    if rows != [] {
      var tail := rows[1..];
      assert WellKeyed(tail, id, bound) by {
        forall p, q | 0 <= p < q < |tail| ensures id(tail[p]) != id(tail[q]) {
          assert tail[p] == rows[p + 1] && tail[q] == rows[q + 1];
        }
      }
      FilterKeepsWellKeyed(tail, id, bound, key, k, keep);
      var rest := Filter(tail, key, k, keep);
      if (key(rows[0]) == k) == keep {
        var r := [rows[0]] + rest;
        forall p, q | 0 <= p < q < |r| ensures id(r[p]) != id(r[q]) {
          if p == 0 {
            assert r[q] in tail;
            var m :| 0 <= m < |tail| && tail[m] == r[q];
            assert tail[m] == rows[m + 1];
          } else {
            assert r[p] == rest[p - 1] && r[q] == rest[q - 1];
          }
        }
        assert forall p :: 0 <= p < |r| ==> id(r[p]) < bound by {
          forall p | 0 <= p < |r| ensures id(r[p]) < bound {
            if p > 0 {
              assert r[p] == rest[p - 1];
            }
          }
        }
      } else {
        assert Filter(rows, key, k, keep) == rest;
      }
    }
  }

  /** With distinct ids, at most one row carries a given id. */
  lemma {:induction false} IdCountAtMostOne<T>(rows: seq<T>, id: T -> Id, bound: nat, k: Id)
    requires WellKeyed(rows, id, bound)
    ensures Count(rows, id, k) <= 1
    ensures (exists x :: x in rows && id(x) == k) ==> Count(rows, id, k) == 1
  {
    if rows != [] {
      var tail := rows[1..];
      assert WellKeyed(tail, id, bound) by {
        forall p, q | 0 <= p < q < |tail| ensures id(tail[p]) != id(tail[q]) {
          assert tail[p] == rows[p + 1] && tail[q] == rows[q + 1];
        }
      }
      IdCountAtMostOne(tail, id, bound, k);
      assert Select(rows, id, k) == (if id(rows[0]) == k then [rows[0]] else []) + Select(tail, id, k);
      if id(rows[0]) == k {
        CountZero(tail, id, k);
      } else if exists x :: x in rows && id(x) == k {
        var x :| x in rows && id(x) == k;
        assert x in tail;
      }
    }
  }
}

=== FILE: likes.dfy ===
/** like.controller.js: toggling a like on a video and the viewer's liked-videos listing. */
module Likes {
  import opened Common
  import opened Gateway
  import opened Entities
  import opened Toggle
  import opened Store

  /** `toggleVideoLike`: the video, then the user, must exist (401 otherwise, nothing
      written); then the viewer's like on the video is deleted if there is one, and a new
      like is saved if there is none. */
  method ToggleVideoLike(db: Db, videoId: Id, userId: Id) returns (r: Result<Toggled>)
    requires db.Valid()
    modifies db`likes, db`nextId
    ensures db.Valid()
    ensures r.Failure? ==> db.likes == old(db.likes) && db.nextId == old(db.nextId)
    ensures FirstIndex(db.videos, VideoId, videoId).None? ==> r == Failure(Unauthorized)
    ensures FirstIndex(db.videos, VideoId, videoId).Some? && FirstIndex(db.users, UserId, userId).None? ==>
      r == Failure(Unauthorized)
    ensures FirstIndex(db.videos, VideoId, videoId).Some? && FirstIndex(db.users, UserId, userId).Some? ==>
      && r == Success(ToggleOutcome(old(db.likes), LikePair, (videoId, userId)))
      && db.likes == ToggleRows(old(db.likes), LikePair, (videoId, userId), Like(old(db.nextId), videoId, userId))
      && db.nextId == old(db.nextId) + (if r.value == Added then 1 else 0)
  {
    var video := Find(db.videos, VideoId, videoId);
    if video.None? {
      return Failure(Unauthorized);
    }
    var likedBy := Find(db.users, UserId, userId);
    if likedBy.None? {
      return Failure(Unauthorized);
    }
    var like := Find(db.likes, LikePair, (videoId, userId));
    if like.Some? {
      WellKeyedRemove(db.likes, LikeId, db.nextId, LikePair, (videoId, userId));
      db.likes := RemoveFirst(db.likes, LikePair, (videoId, userId));
      return Success(Removed);
    }
    var _ := db.InsertLike(videoId, userId);
    return Success(Added);
  }

  /** Liking and unliking a video (in either order) with no duplicate like present gives
      back, for every (video, user) pair, as many likes as before; likes of other pairs
      are never touched, and the two answers are "added" and "removed" in some order. */
  lemma LikeToggledTwice(likes: seq<Like>, videoId: Id, userId: Id, id1: Id, id2: Id)
    requires Count(likes, LikePair, (videoId, userId)) <= 1
    ensures
      var once := ToggleRows(likes, LikePair, (videoId, userId), Like(id1, videoId, userId));
      var twice := ToggleRows(once, LikePair, (videoId, userId), Like(id2, videoId, userId));
      && ToggleOutcome(once, LikePair, (videoId, userId)) != ToggleOutcome(likes, LikePair, (videoId, userId))
      && (forall p :: Count(twice, LikePair, p) == Count(likes, LikePair, p))
      && Without(twice, LikePair, (videoId, userId)) == Without(likes, LikePair, (videoId, userId))
  {
    var pair: (Id, Id) := (videoId, userId);
    var once := ToggleRows(likes, LikePair, pair, Like(id1, videoId, userId));
    var twice := ToggleRows(once, LikePair, pair, Like(id2, videoId, userId));
    ToggleTwiceRestores(likes, LikePair, pair, Like(id1, videoId, userId), Like(id2, videoId, userId));
    forall p: (Id, Id) ensures Count(twice, LikePair, p) == Count(likes, LikePair, p) {
      assert Count(ToggleRows(ToggleRows(likes, LikePair, pair, Like(id1, videoId, userId)),
                              LikePair, pair, Like(id2, videoId, userId)), LikePair, p) == Count(likes, LikePair, p);
    }
  }

  /** A video of the liked-videos listing with its owner looked up (the whole user document). */
  datatype VideoWithOwner = VideoWithOwner(video: Video, owner: Option<User>)

  /** A row of `getLikedVideos`: the like itself and the videos its `video` id refers to. */
  datatype LikedVideoRow = LikedVideoRow(like: Like, likedVideo: seq<VideoWithOwner>)

  /** The inner `$lookup` on videos: every video with that id, each with its first owner. */
  function VideosWithOwner(videos: seq<Video>, users: seq<User>, id: Id): (r: seq<VideoWithOwner>)
    ensures |r| == Count(videos, VideoId, id)
    ensures forall i :: 0 <= i < |r| ==>
      && r[i].video in videos && r[i].video.id == id
      && r[i].owner == FirstUser(users, r[i].video.owner)
    ensures forall v :: v in videos && v.id == id ==> exists i :: 0 <= i < |r| && r[i].video == v
  {
    var found := Select(videos, VideoId, id);
    var r := seq(|found|, i requires 0 <= i < |found| => VideoWithOwner(found[i], FirstUser(users, found[i].owner)));
    forall i | 0 <= i < |r|
      ensures r[i].video in videos && r[i].video.id == id && r[i].owner == FirstUser(users, r[i].video.owner)
    {
      assert r[i].video == found[i] && found[i] in found;
    }
    assert forall v :: v in found ==> exists i :: 0 <= i < |r| && r[i].video == v by {
      forall v | v in found ensures exists i :: 0 <= i < |r| && r[i].video == v {
        var j :| 0 <= j < |found| && found[j] == v;
        assert r[j].video == v;
      }
    }
    r
  }

  /** `getLikedVideos`: exactly the viewer's likes, in stored order, each joined with its videos. */
  function LikedVideos(likes: seq<Like>, videos: seq<Video>, users: seq<User>, viewer: Id): (r: seq<LikedVideoRow>)
    ensures |r| == Count(likes, Liker, viewer)
    ensures forall i :: 0 <= i < |r| ==> r[i].like in likes && r[i].like.likedBy == viewer
    ensures forall l :: l in likes && l.likedBy == viewer ==> exists i :: 0 <= i < |r| && r[i].like == l
    ensures forall i :: 0 <= i < |r| ==> r[i].likedVideo == VideosWithOwner(videos, users, r[i].like.video)
  {
    var mine := Select(likes, Liker, viewer);
    var r := seq(|mine|, i requires 0 <= i < |mine| => LikedVideoRow(mine[i], VideosWithOwner(videos, users, mine[i].video)));
    forall i | 0 <= i < |r| ensures r[i].like in likes && r[i].like.likedBy == viewer {
      assert r[i].like == mine[i] && mine[i] in mine;
    }
    assert forall l :: l in mine ==> exists i :: 0 <= i < |r| && r[i].like == l by {
      forall l | l in mine ensures exists i :: 0 <= i < |r| && r[i].like == l {
        var j :| 0 <= j < |mine| && mine[j] == l;
        assert r[j].like == l;
      }
    }
    r
  }
}

=== FILE: multipart.dfy ===
/** The uploaded files of a request (`req.files`), and how the handlers read the
    path of the first file sent under a form field. */
module Multipart {
  import opened Common

  /** `req.files`: absent when the request carried no multipart body, otherwise the
      stored paths of the files sent under each form field. */
  datatype Files = NoFiles | Fields(parts: map<string, seq<string>>)

  /** `req.files?.<field>[0]?.path` as the handlers write it. The optional chaining guards
      `req.files` only: for a multipart request without that field, `undefined[0]` throws
      a TypeError, which escapes the handler as an internal error. */
  function FirstPathAsWritten(files: Files, field: string): (r: Result<Option<string>>)
    ensures r.Failure? <==> files.Fields? && field !in files.parts
    ensures r.Failure? ==> r.status == ServerError
    ensures r.Success? ==> (r.value.Some? <==> files.Fields? && files.parts[field] != [])
    ensures r.Success? && r.value.Some? ==> r.value.value == files.parts[field][0]
  {
    match files
    case NoFiles => Success(None)
    case Fields(parts) =>
      if field !in parts then Failure(ServerError)
      else if parts[field] == [] then Success(None)
      else Success(Some(parts[field][0]))
  }

  /** The path of the first file sent under `field`, absent whenever there is none
      (`req.files?.<field>?.[0]?.path`, or the `Array.isArray` guard `registerUser` puts in
      front of its cover image): the as-written read with the throw turned into "no file". */
  function FirstPath(files: Files, field: string): (r: Option<string>)
    ensures FirstPathAsWritten(files, field).Success? ==> r == FirstPathAsWritten(files, field).value
    ensures FirstPathAsWritten(files, field).Failure? ==> r == None
  {
    if files.Fields? && field in files.parts && files.parts[field] != [] then Some(files.parts[field][0])
    else None
  }

  /** A request that uploads only a thumbnail: as written, reading its video path throws
      instead of reporting the video as missing. */
  lemma MissingFieldThrows()
    ensures FirstPathAsWritten(Fields(map["thumbnail" := ["uploads/thumb.png"]]), "videoFile") == Failure(ServerError)
    ensures FirstPath(Fields(map["thumbnail" := ["uploads/thumb.png"]]), "videoFile") == None
  {
  }
}

=== FILE: store.dfy ===
/** The in-memory stand-in for the document database the handlers talk to. */
module Store {
  import opened Common
  import opened Gateway
  import opened Entities

  /** The five collections, each a sequence in stored order, and the source of fresh ids. */
  class Db {
    var users: seq<User>
    var videos: seq<Video>
    var comments: seq<Comment>
    var likes: seq<Like>
    var subscriptions: seq<Subscription>
    /** The id the next created document receives. */
    var nextId: Id

    /** `_id` is unique in every collection, and every stored id was handed out before `nextId`. */
    ghost predicate Valid()
      reads this
    {
      && WellKeyed(users, UserId, nextId)
      && WellKeyed(videos, VideoId, nextId)
      && WellKeyed(comments, CommentId, nextId)
      && WellKeyed(likes, LikeId, nextId)
      && WellKeyed(subscriptions, SubscriptionId, nextId)
    }

    constructor ()
      ensures Valid()
      ensures users == [] && videos == [] && comments == [] && likes == [] && subscriptions == []
      ensures nextId == 0
    {
      users, videos, comments, likes, subscriptions := [], [], [], [], [];
      nextId := 0;
    }

    /** `new Like({video, likedBy}).save()`. */
    method InsertLike(video: Id, likedBy: Id) returns (l: Like)
      requires Valid()
      modifies this`likes, this`nextId
      ensures Valid()
      ensures l == Like(old(nextId), video, likedBy)
      ensures likes == old(likes) + [l] && nextId == old(nextId) + 1
    {
      l := Like(nextId, video, likedBy);
      WellKeyedAppend(likes, LikeId, nextId, l);
      likes := likes + [l];
      Grow(nextId + 1);
    }

    /** `new Subscription({subscriber, channel}).save()`. */
    method InsertSubscription(subscriber: Id, channel: Id) returns (s: Subscription)
      requires Valid()
      modifies this`subscriptions, this`nextId
      ensures Valid()
      ensures s == Subscription(old(nextId), subscriber, channel)
      ensures subscriptions == old(subscriptions) + [s] && nextId == old(nextId) + 1
    {
      s := Subscription(nextId, subscriber, channel);
      WellKeyedAppend(subscriptions, SubscriptionId, nextId, s);
      subscriptions := subscriptions + [s];
      Grow(nextId + 1);
    }

    /** `Comment.create({owner, video, content})`. */
    method InsertComment(owner: Id, video: Id, content: string) returns (c: Comment)
      requires Valid()
      modifies this`comments, this`nextId
      ensures Valid()
      ensures c == Comment(old(nextId), content, video, owner)
      ensures comments == old(comments) + [c] && nextId == old(nextId) + 1
    {
      c := Comment(nextId, content, video, owner);
      WellKeyedAppend(comments, CommentId, nextId, c);
      comments := comments + [c];
      Grow(nextId + 1);
    }

    /** `Video.create(...)`: `v` with its id replaced by a fresh one. */
    method InsertVideo(v: Video) returns (created: Video)
      requires Valid()
      modifies this`videos, this`nextId
      ensures Valid()
      ensures created == v.(id := old(nextId))
      ensures videos == old(videos) + [created] && nextId == old(nextId) + 1
    {
      created := v.(id := nextId);
      WellKeyedAppend(videos, VideoId, nextId, created);
      videos := videos + [created];
      Grow(nextId + 1);
    }

    /** `User.create(...)`: `u` with its id replaced by a fresh one. */
    method InsertUser(u: User) returns (created: User)
      requires Valid()
      modifies this`users, this`nextId
      ensures Valid()
      ensures created == u.(id := old(nextId))
      ensures users == old(users) + [created] && nextId == old(nextId) + 1
    {
      created := u.(id := nextId);
      WellKeyedAppend(users, UserId, nextId, created);
      users := users + [created];
      Grow(nextId + 1);
    }

    /** Moves `nextId` up to `bound`, which every stored id is already below. */
    method Grow(bound: Id)
      requires nextId <= bound
      requires WellKeyed(users, UserId, bound) || WellKeyed(users, UserId, nextId)
      requires WellKeyed(videos, VideoId, bound) || WellKeyed(videos, VideoId, nextId)
      requires WellKeyed(comments, CommentId, bound) || WellKeyed(comments, CommentId, nextId)
      requires WellKeyed(likes, LikeId, bound) || WellKeyed(likes, LikeId, nextId)
      requires WellKeyed(subscriptions, SubscriptionId, bound) || WellKeyed(subscriptions, SubscriptionId, nextId)
      modifies this`nextId
      ensures Valid() && nextId == bound
    {
      nextId := bound;
    }
  }
}

=== FILE: subscriptions.dfy ===
/** subscription.controller.js: toggling a subscription and listing a channel's subscribers. */
module Subscriptions {
  import opened Common
  import opened Gateway
  import opened Entities
  import opened Toggle
  import opened Store

  /** `toggleSubscription`: both the subscriber and the channel must exist (404 otherwise,
      nothing written); then an existing (subscriber, channel) row is deleted, or a new one
      is saved. Nothing stops a user from subscribing to themself. */
  method ToggleSubscription(db: Db, subscriberId: Id, channelId: Id) returns (r: Result<Toggled>)
    requires db.Valid()
    modifies db`subscriptions, db`nextId
    ensures db.Valid()
    ensures r.Failure? ==> db.subscriptions == old(db.subscriptions) && db.nextId == old(db.nextId)
    ensures FirstIndex(db.users, UserId, subscriberId).None? || FirstIndex(db.users, UserId, channelId).None? ==>
      r == Failure(NotFound)
    ensures FirstIndex(db.users, UserId, subscriberId).Some? && FirstIndex(db.users, UserId, channelId).Some? ==>
      && r == Success(ToggleOutcome(old(db.subscriptions), SubscriptionPair, (subscriberId, channelId)))
      && db.subscriptions == ToggleRows(old(db.subscriptions), SubscriptionPair, (subscriberId, channelId),
                                        Subscription(old(db.nextId), subscriberId, channelId))
      && db.nextId == old(db.nextId) + (if r.value == Added then 1 else 0)
  {
    var subscriber := Find(db.users, UserId, subscriberId);
    var channel := Find(db.users, UserId, channelId);
    if subscriber.None? || channel.None? {
      return Failure(NotFound);
    }
    var subscription := Find(db.subscriptions, SubscriptionPair, (subscriberId, channelId));
    if subscription.Some? {
      WellKeyedRemove(db.subscriptions, SubscriptionId, db.nextId, SubscriptionPair, (subscriberId, channelId));
      db.subscriptions := RemoveFirst(db.subscriptions, SubscriptionPair, (subscriberId, channelId));
      return Success(Removed);
    }
    var _ := db.InsertSubscription(subscriberId, channelId);
    return Success(Added);
  }

  /** Subscribing and unsubscribing (in either order), with no duplicate row present, gives
      back as many rows for every (subscriber, channel) pair as before, self-subscriptions
      included; rows of other pairs are never touched. */
  lemma SubscriptionToggledTwice(subs: seq<Subscription>, subscriberId: Id, channelId: Id, id1: Id, id2: Id)
    requires Count(subs, SubscriptionPair, (subscriberId, channelId)) <= 1
    ensures
      var pair := (subscriberId, channelId);
      var once := ToggleRows(subs, SubscriptionPair, pair, Subscription(id1, subscriberId, channelId));
      var twice := ToggleRows(once, SubscriptionPair, pair, Subscription(id2, subscriberId, channelId));
      && ToggleOutcome(once, SubscriptionPair, pair) != ToggleOutcome(subs, SubscriptionPair, pair)
      && (forall p :: Count(twice, SubscriptionPair, p) == Count(subs, SubscriptionPair, p))
      && Without(twice, SubscriptionPair, pair) == Without(subs, SubscriptionPair, pair)
  {
    var pair: (Id, Id) := (subscriberId, channelId);
    var once := ToggleRows(subs, SubscriptionPair, pair, Subscription(id1, subscriberId, channelId));
    var twice := ToggleRows(once, SubscriptionPair, pair, Subscription(id2, subscriberId, channelId));
    ToggleTwiceRestores(subs, SubscriptionPair, pair,
      Subscription(id1, subscriberId, channelId), Subscription(id2, subscriberId, channelId));
    forall p: (Id, Id) ensures Count(twice, SubscriptionPair, p) == Count(subs, SubscriptionPair, p) {
      assert Count(ToggleRows(ToggleRows(subs, SubscriptionPair, pair, Subscription(id1, subscriberId, channelId)),
                              SubscriptionPair, pair, Subscription(id2, subscriberId, channelId)), SubscriptionPair, p)
          == Count(subs, SubscriptionPair, p);
    }
  }

  /** `getUserChannelSubscribers`: exactly the subscriptions to `channelId`; an empty list is
      a successful answer, not an error. */
  function ChannelSubscribers(subs: seq<Subscription>, channelId: Id): (r: seq<Subscription>)
    ensures |r| == Count(subs, ChannelOf, channelId)
    ensures forall s :: s in r ==> s in subs && s.channel == channelId
    ensures forall s :: s in subs && s.channel == channelId ==> s in r
  {
    Select(subs, ChannelOf, channelId)
  }
}

=== FILE: toggle.dfy ===
/** The toggle shared by likes and subscriptions: look up the row for a pair;
    delete it when found, otherwise insert a new row for the pair. */
module Toggle {
  import opened Gateway

  /** The message a toggle answers with ("... added" / "... removed"). */
  datatype Toggled = Added | Removed

  /** What a toggle of pair `k` answers on collection `rows`. */
  function ToggleOutcome<T, K(==)>(rows: seq<T>, key: T -> K, k: K): (r: Toggled)
    ensures r == Removed <==> Count(rows, key, k) > 0
  {
    CountZero(rows, key, k);
    if FirstIndex(rows, key, k).Some? then Removed else Added
  }

  /** The collection after a toggle of pair `k`; `newRow` is the row an insert would save. */
  function ToggleRows<T, K(==)>(rows: seq<T>, key: T -> K, k: K, newRow: T): seq<T>
  {
    if FirstIndex(rows, key, k).Some? then RemoveFirst(rows, key, k) else rows + [newRow]
  }

  /** A toggle flips pair `k` between present and absent: one row for `k` is removed or
      one is added; the number of rows of every other pair is unchanged. */
  lemma ToggleCount<T, K>(rows: seq<T>, key: T -> K, k: K, newRow: T, k': K)
    requires key(newRow) == k
    ensures Count(ToggleRows(rows, key, k, newRow), key, k') ==
      if k' != k then Count(rows, key, k')
      else if Count(rows, key, k) == 0 then 1
      else Count(rows, key, k) - 1
  {
    CountZero(rows, key, k);
    if FirstIndex(rows, key, k).Some? {
      RemoveFirstCount(rows, key, k, k');
    } else {
      FilterConcat(rows, [newRow], key, k', true);
      assert [newRow][1..] == [];
    }
  }

  /** A toggle never touches a row of another pair, nor their order. */
  lemma ToggleKeepsOthers<T, K>(rows: seq<T>, key: T -> K, k: K, newRow: T)
    requires key(newRow) == k
    ensures Without(ToggleRows(rows, key, k, newRow), key, k) == Without(rows, key, k)
  {
    if FirstIndex(rows, key, k).Some? {
      RemoveFirstKeepsOthers(rows, key, k);
    } else {
      FilterConcat(rows, [newRow], key, k, false);
      assert [newRow][1..] == [];
    }
  }

  /** Toggling a pair that is absent, then toggling it again, gives back the very same collection. */
  lemma ToggleTwiceFromAbsent<T, K>(rows: seq<T>, key: T -> K, k: K, newRow1: T, newRow2: T)
    requires key(newRow1) == k
    requires Count(rows, key, k) == 0
    ensures ToggleOutcome(rows, key, k) == Added
    ensures ToggleOutcome(ToggleRows(rows, key, k, newRow1), key, k) == Removed
    ensures ToggleRows(ToggleRows(rows, key, k, newRow1), key, k, newRow2) == rows
  {
    CountZero(rows, key, k);
    var once := rows + [newRow1];
    assert ToggleRows(rows, key, k, newRow1) == once;
    assert key(once[|rows|]) == k;
    assert forall j :: 0 <= j < |rows| ==> key(once[j]) != k;
    var i := FirstIndex(once, key, k).value;
    assert i == |rows|;
    assert once[..i] + once[i + 1..] == rows;
    CountZero(once, key, k);
  }

  /** Toggling a pair twice, with no duplicate row for it, restores how many rows every pair
      has, leaves every row of another pair as it was, and answers the two opposite outcomes. */
  lemma ToggleTwiceRestores<T, K>(rows: seq<T>, key: T -> K, k: K, newRow1: T, newRow2: T)
    requires key(newRow1) == k && key(newRow2) == k
    requires Count(rows, key, k) <= 1
    ensures ToggleOutcome(ToggleRows(rows, key, k, newRow1), key, k) != ToggleOutcome(rows, key, k)
    ensures forall k' ::
      Count(ToggleRows(ToggleRows(rows, key, k, newRow1), key, k, newRow2), key, k') == Count(rows, key, k')
    ensures Without(ToggleRows(ToggleRows(rows, key, k, newRow1), key, k, newRow2), key, k) == Without(rows, key, k)
  {
    var once := ToggleRows(rows, key, k, newRow1);
    ToggleCount(rows, key, k, newRow1, k);
    forall k' ensures Count(ToggleRows(once, key, k, newRow2), key, k') == Count(rows, key, k') {
      ToggleCount(rows, key, k, newRow1, k');
      ToggleCount(once, key, k, newRow2, k');
    }
    ToggleKeepsOthers(rows, key, k, newRow1);
    ToggleKeepsOthers(once, key, k, newRow2);
  }
}

=== FILE: users.dfy ===
/** user.controller.js: registration, login and logout. Password hashing, token signing
    and the media upload are inputs. */
module Users {
  import opened Common
  import opened Gateway
  import opened Entities
  import opened Store
  import opened Cloudinary
  import opened Multipart

  // ---------------------------------------------------------------------------
  // Text helpers: `trim` and `toLowerCase`
  // ---------------------------------------------------------------------------

  /** The characters `String.prototype.trim` strips: ECMAScript white space (tab, vertical
      tab, form feed, no-break space, byte-order mark and the space separators) and line
      terminators. */
  predicate IsSpace(c: char)
  {
    || c == '\t' || c == '\n' || c == '\U{000B}' || c == '\U{000C}' || c == '\r'
    || c == ' ' || c == '\U{00A0}' || c == '\U{1680}' || ('\U{2000}' <= c <= '\U{200A}')
    || c == '\U{2028}' || c == '\U{2029}' || c == '\U{202F}' || c == '\U{205F}'
    || c == '\U{3000}' || c == '\U{FEFF}'
  }

  /** `s` without its leading white space. */
  function TrimStart(s: string): (r: string)
    ensures |r| <= |s| && r == s[|s| - |r|..]
    ensures r == [] || !IsSpace(r[0])
    ensures forall i :: 0 <= i < |s| - |r| ==> IsSpace(s[i])
  {
    if s != [] && IsSpace(s[0]) then TrimStart(s[1..]) else s
  }

  /** `s` without its trailing white space. */
  function TrimEnd(s: string): (r: string)
    ensures |r| <= |s| && r == s[..|r|]
    ensures r == [] || !IsSpace(r[|r| - 1])
    ensures forall i :: |r| <= i < |s| ==> IsSpace(s[i])
  {
    if s != [] && IsSpace(s[|s| - 1]) then TrimEnd(s[..|s| - 1]) else s
  }

  /** `r` is `s` from position `a` on, with only white space before and after it. */
  predicate StrippedAt(s: string, a: int, r: string)
  {
    && 0 <= a && a + |r| <= |s| && r == s[a..a + |r|]
    && (forall i :: 0 <= i < a ==> IsSpace(s[i]))
    && (forall i :: a + |r| <= i < |s| ==> IsSpace(s[i]))
  }

  /** `s.trim()`: `s` with its leading and its trailing white space removed, and nothing
      else. */
  function Trim(s: string): (r: string)
    ensures |r| <= |s|
    ensures r == [] || (!IsSpace(r[0]) && !IsSpace(r[|r| - 1]))
    ensures exists a :: StrippedAt(s, a, r)
  {
    var t := TrimStart(s);
    var r := TrimEnd(t);
    StripsOuterSpace(s, t, r);
    r
  }

  /** `t` is `s` after its leading white space and `r` is `t` before its trailing white
      space, as `TrimStart` and `TrimEnd` promise: then `r` is `s` stripped at both ends. */
  lemma StripsOuterSpace(s: string, t: string, r: string)
    requires |t| <= |s| && t == s[|s| - |t|..]
    requires t == [] || !IsSpace(t[0])
    requires forall i :: 0 <= i < |s| - |t| ==> IsSpace(s[i])
    requires |r| <= |t| && r == t[..|r|]
    requires r == [] || !IsSpace(r[|r| - 1])
    requires forall i :: |r| <= i < |t| ==> IsSpace(t[i])
    ensures r == [] || (!IsSpace(r[0]) && !IsSpace(r[|r| - 1]))
    ensures StrippedAt(s, |s| - |t|, r)
  {
    if r != [] {
      assert r[0] == t[0];
    }
    SliceOfSuffix(s, t, r);
    TrailingSpaceOfSuffix(s, t, |r|);
  }

  lemma SliceOfSuffix(s: string, t: string, r: string)
    requires |t| <= |s| && t == s[|s| - |t|..]
    requires |r| <= |t| && r == t[..|r|]
    ensures r == s[|s| - |t|..|s| - |t| + |r|]
  {
  }

  lemma TrailingSpaceOfSuffix(s: string, t: string, n: nat)
    requires |t| <= |s| && t == s[|s| - |t|..] && n <= |t|
    requires forall i :: n <= i < |t| ==> IsSpace(t[i])
    ensures forall i :: |s| - |t| + n <= i < |s| ==> IsSpace(s[i])
  {
    forall i | |s| - |t| + n <= i < |s| ensures IsSpace(s[i]) {
      assert s[i] == t[i - (|s| - |t|)];
    }
  }

  /** A string trims to "" exactly when every character of it is white space. */
  lemma TrimEmptyIffAllSpace(s: string)
    ensures Trim(s) == [] <==> forall i :: 0 <= i < |s| ==> IsSpace(s[i])
  {
    var t := TrimStart(s);
    if forall i :: 0 <= i < |s| ==> IsSpace(s[i]) {
      assert t == [] by {
        assert t == s[|s| - |t|..];
      }
    } else {
      var k :| 0 <= k < |s| && !IsSpace(s[k]);
      assert t[k - (|s| - |t|)] == s[k];
    }
  }

  /** The registration check `field?.trim() === ""`: a given field that trims to "". An absent
      field does not trip it, since `undefined?.trim()` is `undefined`. */
  predicate Blank(field: Option<string>)
  {
    field.Some? && Trim(field.value) == ""
  }

  /** `toLowerCase` on ASCII letters. */
  function LowerChar(c: char): char
  {
    if 'A' <= c <= 'Z' then (c as int + 32) as char else c
  }

  /** `s.toLowerCase()`, for ASCII text: each capital letter becomes its small letter and
      every other character stays. */
  function Lower(s: string): (r: string)
    ensures |r| == |s|
    ensures forall i :: 0 <= i < |s| ==> !('A' <= r[i] <= 'Z')
    ensures forall i :: 0 <= i < |s| && !('A' <= s[i] <= 'Z') ==> r[i] == s[i]
    ensures forall i :: 0 <= i < |s| && 'A' <= s[i] <= 'Z' ==> r[i] as int == s[i] as int + 32
  {
    if s == [] then [] else [LowerChar(s[0])] + Lower(s[1..])
  }

  // ---------------------------------------------------------------------------
  // Lookups by username or email
  // ---------------------------------------------------------------------------

  /** The `$or: [{username}, {email}]` filter. An absent value is taken to match no stored
      user, as when it reaches the database as null and every stored user has both fields.
      A driver that strips the undefined key instead would turn that branch into `{}`, which
      matches every user; that reading is not modelled. */
  function NameOrEmail(username: Option<string>, email: Option<string>): User -> bool
  {
    (u: User) => Some(u.username) == username || Some(u.email) == email
  }

  /** Registration's duplicate check: some user already has this username or this email,
      compared exactly as supplied. */
  predicate Taken(users: seq<User>, username: Option<string>, email: Option<string>)
  {
    FirstIndex(users, NameOrEmail(username, email), true).Some?
  }

  /** The duplicate check compares the username as supplied while users are stored
      lowercased, so "Alice" passes the check against a stored "alice" and is then handed to
      the create as "alice" again; whether the create refuses it depends on indexes of the
      user schema, which this model does not include. */
  lemma CaseVariantPassesDuplicateCheck()
    ensures
      var stored := User(0, "alice", "a@example.com", "Alice", "a.png", "", "pw", None, []);
      && !Taken([stored], Some("Alice"), Some("b@example.com"))
      && Lower("Alice") == stored.username
  {
    var stored := User(0, "alice", "a@example.com", "Alice", "a.png", "", "pw", None, []);
    assert "Alice" != "alice" by {
      assert "Alice"[0] != "alice"[0];
    }
    assert "b@example.com" != "a@example.com" by {
      assert "b@example.com"[0] != "a@example.com"[0];
    }
    assert !NameOrEmail(Some("Alice"), Some("b@example.com"))(stored);
    assert [stored][1..] == [];
    LowerOfAlice();
  }

  lemma LowerOfAlice()
    ensures Lower("Alice") == "alice"
  {
    var r := Lower("Alice");
    assert r[0] as int == 'A' as int + 32;
    assert r[1..] == "Alice"[1..] by {
      forall i | 1 <= i < 5 ensures r[i] == "Alice"[i] {
        assert !('A' <= "Alice"[i] <= 'Z');
      }
    }
    assert r == [r[0]] + r[1..];
  }

  // ---------------------------------------------------------------------------
  // Refresh tokens
  // ---------------------------------------------------------------------------

  /** `findByIdAndUpdate(id, {refreshToken})` (and `findById` then save): the user found by
      `id` gets `token`; every other row, and every id, stays as it was. */
  function WithRefreshToken(users: seq<User>, id: Id, token: Option<string>): (r: seq<User>)
    ensures |r| == |users|
    ensures forall j :: 0 <= j < |r| ==> r[j].id == users[j].id
    ensures forall j :: 0 <= j < |r| && FirstIndex(users, UserId, id) != Some(j) ==> r[j] == users[j]
    ensures FirstIndex(users, UserId, id).Some? ==>
      var i := FirstIndex(users, UserId, id).value;
      r[i] == users[i].(refreshToken := token)
  {
    match FirstIndex(users, UserId, id)
    case None => users
    case Some(i) => users[i := users[i].(refreshToken := token)]
  }

  /** With distinct ids, every user carrying `id` ends up holding `token`, and no other
      user's token moves. */
  lemma TokenLandsOnThatUser(users: seq<User>, bound: nat, id: Id, token: Option<string>)
    requires WellKeyed(users, UserId, bound)
    ensures forall u :: u in WithRefreshToken(users, id, token) && u.id == id ==> u.refreshToken == token
    ensures forall u :: u in WithRefreshToken(users, id, token) && u.id != id ==> u in users
  {
    var r := WithRefreshToken(users, id, token);
    forall u | u in r && u.id == id ensures u.refreshToken == token {
      var j :| 0 <= j < |r| && r[j] == u;
      FirstIndexOfStoredId(users, UserId, bound, j);
    }
    forall u | u in r && u.id != id ensures u in users {
      var j :| 0 <= j < |r| && r[j] == u;
      assert r[j] == users[j];
    }
  }

  // ---------------------------------------------------------------------------
  // The user handed back: `.select("-password -refreshtoken")`
  // ---------------------------------------------------------------------------

  /** A user as the handlers send it back: every stored field but the password. */
  datatype UserView = UserView(
    id: Id,
    username: string,
    email: string,
    fullName: string,
    avatar: string,
    coverImage: string,
    refreshToken: Option<string>,
    watchHistory: seq<WatchEntry>)

  /** `findById(id).select("-password -refreshtoken")`: the password is excluded. The second
      exclusion names `refreshtoken`, which is not the stored field `refreshToken`, so the
      refresh token stays in the document. */
  function Selected(u: User): UserView
  {
    UserView(u.id, u.username, u.email, u.fullName, u.avatar, u.coverImage, u.refreshToken, u.watchHistory)
  }

  /** The projection hides exactly the password: two users look the same after it exactly
      when they differ at most in their passwords, and the refresh token is kept. */
  lemma SelectedHidesOnlyPassword(u: User, w: User)
    ensures Selected(u) == Selected(w) <==> u == w.(password := u.password)
    ensures Selected(u).refreshToken == u.refreshToken
  {
    if Selected(u) == Selected(w) {
      assert u.id == Selected(u).id == Selected(w).id == w.id;
      assert u.watchHistory == Selected(u).watchHistory == Selected(w).watchHistory == w.watchHistory;
    }
  }

  // ---------------------------------------------------------------------------
  // The handlers
  // ---------------------------------------------------------------------------

  /** `registerUser`. The media host's answers for the avatar and the cover image are inputs
      (None when an upload fails); `uploaded` lists the paths handed to it, each of whose
      local files is unlinked. Checks, in order: a given field that trims to "" (400); a
      user with this username or email (409); reading the avatar path throws for a multipart
      request without an `avatar` field (500); no avatar path (409); a failed avatar upload
      (400); then a field is absent (500, the create throws). Exactly when all pass, one
      user is created, username lowercased and cover image "" when none was obtained. */
  method RegisterUser(db: Db, fullName: Option<string>, email: Option<string>, username: Option<string>,
                      password: Option<string>, files: Files, avatarRemote: Option<Upload>, coverRemote: Option<Upload>)
    returns (r: Result<UserView>, uploaded: seq<string>)
    requires db.Valid()
    modifies db`users, db`nextId
    ensures db.Valid()
    ensures r.Failure? ==> db.users == old(db.users) && db.nextId == old(db.nextId)
    ensures
      var blank := Blank(fullName) || Blank(email) || Blank(username) || Blank(password);
      var taken := Taken(old(db.users), username, email);
      var avatarRead := FirstPathAsWritten(files, "avatar");
      var coverPath := FirstPath(files, "coverImage");
      var checked := !blank && !taken;
      var passed := checked && avatarRead.Success? && Truthy(avatarRead.value);
      var complete := fullName.Some? && email.Some? && username.Some? && password.Some?;
      && (blank ==> r == Failure(BadRequest))
      && (!blank && taken ==> r == Failure(Conflict))
      && (checked && avatarRead.Failure? ==> r == Failure(ServerError))
      && (checked && avatarRead.Success? && !Truthy(avatarRead.value) ==> r == Failure(Conflict))
      && (!passed ==> uploaded == [])
      && (passed ==> uploaded == [avatarRead.value.value] + (if Truthy(coverPath) then [coverPath.value] else []))
      && (passed && avatarRemote.None? ==> r == Failure(BadRequest))
      && (passed && avatarRemote.Some? && !complete ==> r == Failure(ServerError))
      && (passed && avatarRemote.Some? && complete ==> r.Success?)
      && (r.Success? ==>
            && passed && avatarRemote.Some? && complete
            && db.users == old(db.users) + [User(old(db.nextId), Lower(username.value), email.value, fullName.value,
                                                 avatarRemote.value.url,
                                                 if Truthy(coverPath) && coverRemote.Some? then coverRemote.value.url else "",
                                                 password.value, None, [])]
            && r.value == Selected(db.users[|old(db.users)|])
            && db.nextId == old(db.nextId) + 1)
  {
    uploaded := [];
    if Blank(fullName) || Blank(email) || Blank(username) || Blank(password) {
      return Failure(BadRequest), uploaded;
    }
    var existed := Find(db.users, NameOrEmail(username, email), true);
    if existed.Some? {
      return Failure(Conflict), uploaded;
    }
    var avatarRead := FirstPathAsWritten(files, "avatar");
    if avatarRead.Failure? {
      return Failure(ServerError), uploaded;
    }
    var avatarLocal := avatarRead.value;
    var coverImageLocal := FirstPath(files, "coverImage");
    if !Truthy(avatarLocal) {
      return Failure(Conflict), uploaded;
    }
    var avatar := UploadToCloudinary(avatarLocal, avatarRemote);
    var coverImage := UploadToCloudinary(coverImageLocal, coverRemote);
    uploaded := avatar.sent + coverImage.sent;
    if avatar.answer.None? {
      return Failure(BadRequest), uploaded;
    }
    if fullName.None? || email.None? || username.None? || password.None? {
      return Failure(ServerError), uploaded;
    }
    var cover := if coverImage.answer.Some? && coverImage.answer.value.url != "" then coverImage.answer.value.url else "";
    assert cover == if Truthy(coverImageLocal) && coverRemote.Some? then coverRemote.value.url else "";
    var user := db.InsertUser(User(0, Lower(username.value), email.value, fullName.value, avatar.answer.value.url,
                                   cover, password.value, None, []));
    return Success(Selected(user)), uploaded;
  }

  /** `loginUser`. `isPasswordCorrect` is the stored-hash comparison for the submitted
      password and `refreshToken` the token minted for the user. Checks, in order: neither
      email nor username given (400); no user with that email or username (401); a wrong
      password (401). Then the found user, and only that user, gets the refresh token. */
  method LoginUser(db: Db, email: Option<string>, username: Option<string>, isPasswordCorrect: User -> bool,
                   refreshToken: string) returns (r: Result<UserView>)
    requires db.Valid()
    modifies db`users
    ensures db.Valid()
    ensures r.Failure? ==> db.users == old(db.users)
    ensures !Truthy(email) && !Truthy(username) ==> r == Failure(BadRequest)
    ensures (Truthy(email) || Truthy(username)) ==>
      match FirstIndex(old(db.users), NameOrEmail(username, email), true)
      case None => r == Failure(Unauthorized)
      case Some(i) =>
        if !isPasswordCorrect(old(db.users)[i]) then r == Failure(Unauthorized)
        else
          && db.users == WithRefreshToken(old(db.users), old(db.users)[i].id, Some(refreshToken))
          && r == Success(Selected(old(db.users)[i].(refreshToken := Some(refreshToken))))
  {
    if !(Truthy(email) || Truthy(username)) {
      return Failure(BadRequest);
    }
    var found := Find(db.users, NameOrEmail(username, email), true);
    if found.None? {
      return Failure(Unauthorized);
    }
    var user := db.users[found.value];
    if !isPasswordCorrect(user) {
      return Failure(Unauthorized);
    }
    FirstIndexOfStoredId(db.users, UserId, db.nextId, found.value);
    var updated := WithRefreshToken(db.users, user.id, Some(refreshToken));
    WellKeyedUpdate(db.users, UserId, db.nextId, found.value, user.(refreshToken := Some(refreshToken)));
    db.users := updated;
    return Success(Selected(user.(refreshToken := Some(refreshToken))));
  }

  /** `logoutUser`: the requesting user's refresh token is unset; nothing else changes. */
  method LogoutUser(db: Db, userId: Id) returns (r: Result<()>)
    requires db.Valid()
    modifies db`users
    ensures db.Valid()
    ensures r == Success(())
    ensures db.users == WithRefreshToken(old(db.users), userId, None)
  {
    var found := Find(db.users, UserId, userId);
    if found.Some? {
      WellKeyedUpdate(db.users, UserId, db.nextId, found.value, db.users[found.value].(refreshToken := None));
    }
    db.users := WithRefreshToken(db.users, userId, None);
    return Success(());
  }
}

=== FILE: videos.dfy ===
/** video.controller.js: the per-viewer first-view accounting and detail view of
    `getVideoById`, the published-video feed of `getAllVideos`, and `publishAVideo`. */
module Videos {
  import opened Common
  import opened Gateway
  import opened Entities
  import opened Store
  import opened Cloudinary
  import opened Multipart

  // ---------------------------------------------------------------------------
  // getVideoById: first-view accounting
  // ---------------------------------------------------------------------------

  /** Some entry of `history` is for `videoId`. */
  predicate Watched(history: seq<WatchEntry>, videoId: Id)
  {
    exists i :: 0 <= i < |history| && history[i].video == videoId
  }

  /** `user.watchHistory.some(entry => entry.video == videoId)`: a scan in history order. */
  method AlreadyWatched(history: seq<WatchEntry>, videoId: Id) returns (b: bool)
    ensures b <==> Watched(history, videoId)
  {
    var i := 0;
    while i < |history|
      invariant 0 <= i <= |history|
      invariant forall j :: 0 <= j < i ==> history[j].video != videoId
    {
      if history[i].video == videoId {
        return true;
      }
      i := i + 1;
    }
    return false;
  }

  /** The two collections `getVideoById` writes. */
  datatype ViewState = ViewState(videos: seq<Video>, users: seq<User>)

  /** The views of the video found by `videoId` (0 when there is none). */
  function ViewsOf(videos: seq<Video>, videoId: Id): nat
  {
    match FirstIndex(videos, VideoId, videoId)
    case None => 0
    case Some(i) => videos[i].views
  }

  /** The watch history of the user found by `userId` (empty when there is none). */
  function HistoryOf(users: seq<User>, userId: Id): seq<WatchEntry>
  {
    match FirstIndex(users, UserId, userId)
    case None => []
    case Some(i) => users[i].watchHistory
  }

  /** The writes of `getVideoById`: 404 when the video or the viewer is missing; otherwise,
      unless the viewer's history already holds the video, the video's views go up by one
      and `{video, watchedAt: now}` is appended to the viewer's history. */
  function OpenVideo(s: ViewState, videoId: Id, userId: Id, now: int): (r: Result<ViewState>)
    ensures r.Failure? <==>
      FirstIndex(s.videos, VideoId, videoId).None? || FirstIndex(s.users, UserId, userId).None?
    ensures r.Failure? ==> r.status == NotFound
    ensures r.Success? ==> |r.value.videos| == |s.videos| && |r.value.users| == |s.users|
  {
    match FirstIndex(s.videos, VideoId, videoId)
    case None => Failure(NotFound)
    case Some(vi) =>
      match FirstIndex(s.users, UserId, userId)
      case None => Failure(NotFound)
      case Some(ui) =>
        var video, user := s.videos[vi], s.users[ui];
        if Watched(user.watchHistory, videoId) then Success(s)
        else Success(ViewState(
          s.videos[vi := video.(views := video.views + 1)],
          s.users[ui := user.(watchHistory := user.watchHistory + [WatchEntry(videoId, now)])]))
  }

  /** The writes keep every id where it was, so every later lookup lands on the same row. */
  lemma OpenVideoKeepsLookups(s: ViewState, videoId: Id, userId: Id, now: int, v: Id, u: Id)
    requires OpenVideo(s, videoId, userId, now).Success?
    ensures FirstIndex(OpenVideo(s, videoId, userId, now).value.videos, VideoId, v) == FirstIndex(s.videos, VideoId, v)
    ensures FirstIndex(OpenVideo(s, videoId, userId, now).value.users, UserId, u) == FirstIndex(s.users, UserId, u)
  {
    var s' := OpenVideo(s, videoId, userId, now).value;
    FirstIndexSameKeys(s'.videos, s.videos, VideoId, v);
    FirstIndexSameKeys(s'.users, s.users, UserId, u);
  }

  /** A first view raises the video's views by exactly one and appends exactly one entry at
      the end of the viewer's history; a repeat view changes neither. Afterwards the history
      holds the video, and every other video's views and every other user's history are as
      they were. */
  lemma FirstViewCounts(s: ViewState, videoId: Id, userId: Id, now: int)
    requires OpenVideo(s, videoId, userId, now).Success?
    ensures
      var s' := OpenVideo(s, videoId, userId, now).value;
      var seen := Watched(HistoryOf(s.users, userId), videoId);
      && ViewsOf(s'.videos, videoId) == ViewsOf(s.videos, videoId) + (if seen then 0 else 1)
      && HistoryOf(s'.users, userId) == HistoryOf(s.users, userId) + (if seen then [] else [WatchEntry(videoId, now)])
      && Watched(HistoryOf(s'.users, userId), videoId)
      && (forall v :: v != videoId ==> ViewsOf(s'.videos, v) == ViewsOf(s.videos, v))
      && (forall u :: u != userId ==> HistoryOf(s'.users, u) == HistoryOf(s.users, u))
  {
    var s' := OpenVideo(s, videoId, userId, now).value;
    var vi := FirstIndex(s.videos, VideoId, videoId).value;
    var ui := FirstIndex(s.users, UserId, userId).value;
    OpenVideoKeepsLookups(s, videoId, userId, now, videoId, userId);
    var h := HistoryOf(s'.users, userId);
    if !Watched(HistoryOf(s.users, userId), videoId) {
      assert h[|h| - 1].video == videoId;
    }
    forall v | v != videoId ensures ViewsOf(s'.videos, v) == ViewsOf(s.videos, v) {
      OpenVideoKeepsLookups(s, videoId, userId, now, v, userId);
    }
    forall u | u != userId ensures HistoryOf(s'.users, u) == HistoryOf(s.users, u) {
      OpenVideoKeepsLookups(s, videoId, userId, now, videoId, u);
    }
  }

  /** Opening the same video again as the same viewer writes nothing. */
  lemma RepeatViewIsNoOp(s: ViewState, videoId: Id, userId: Id, now: int, later: int)
    requires OpenVideo(s, videoId, userId, now).Success?
    ensures
      var s' := OpenVideo(s, videoId, userId, now).value;
      OpenVideo(s', videoId, userId, later) == Success(s')
  {
    var s' := OpenVideo(s, videoId, userId, now).value;
    FirstViewCounts(s, videoId, userId, now);
    OpenVideoKeepsLookups(s, videoId, userId, now, videoId, userId);
  }

  /** One viewer opening a video twice: the second call succeeds too, and the two calls
      together add at most one view. */
  lemma TwoViewsAddAtMostOne(s: ViewState, videoId: Id, userId: Id, now: int, later: int)
    requires OpenVideo(s, videoId, userId, now).Success?
    ensures
      var s1 := OpenVideo(s, videoId, userId, now).value;
      var s2 := OpenVideo(s1, videoId, userId, later);
      s2.Success? && ViewsOf(s2.value.videos, videoId) <= ViewsOf(s.videos, videoId) + 1
  {
    FirstViewCounts(s, videoId, userId, now);
    RepeatViewIsNoOp(s, videoId, userId, now, later);
  }

  // ---------------------------------------------------------------------------
  // getVideoById: the detail view
  // ---------------------------------------------------------------------------

  /** The owner as the detail view projects it, with the owner's subscriber count. */
  datatype OwnerDetails = OwnerDetails(id: Id, fullName: string, avatar: string, username: string, subscribers: nat)

  /** A row of the detail aggregate; the raw `likes` array is not part of it. */
  datatype VideoDetail = VideoDetail(video: Video, ownerDetails: Option<OwnerDetails>, isLiked: bool, totalLikes: nat)

  /** One video's detail row as seen by `viewer`. */
  function Detail(v: Video, users: seq<User>, likes: seq<Like>, subs: seq<Subscription>, viewer: Id): (d: VideoDetail)
    ensures d.video == v
    ensures d.isLiked <==> exists l :: l in likes && l.video == v.id && l.likedBy == viewer
    ensures d.totalLikes == Count(likes, LikedVideo, v.id)
    ensures d.ownerDetails.Some? <==> exists u :: u in users && u.id == v.owner
    ensures d.ownerDetails.Some? ==>
      && d.ownerDetails.value.id == v.owner
      && d.ownerDetails.value.subscribers == Count(subs, ChannelOf, v.owner)
      && FirstUser(users, v.owner).Some?
      && d.ownerDetails.value.fullName == FirstUser(users, v.owner).value.fullName
      && d.ownerDetails.value.avatar == FirstUser(users, v.owner).value.avatar
      && d.ownerDetails.value.username == FirstUser(users, v.owner).value.username
  {
    var onVideo := Select(likes, LikedVideo, v.id);
    var owner := match FirstUser(users, v.owner)
      case None => None
      case Some(u) => Some(OwnerDetails(u.id, u.fullName, u.avatar, u.username, Count(subs, ChannelOf, u.id)));
    var isLiked := Count(onVideo, Liker, viewer) > 0;
    assert isLiked <==> exists l :: l in likes && l.video == v.id && l.likedBy == viewer by {
      CountZero(onVideo, Liker, viewer);
      if isLiked {
        var j := FirstIndex(onVideo, Liker, viewer).value;
        assert onVideo[j] in onVideo;
      } else {
        forall l | l in likes && l.video == v.id ensures l.likedBy != viewer {
          assert l in onVideo;
        }
      }
    }
    VideoDetail(v, owner, isLiked, |onVideo|)
  }

  /** The detail aggregate: one row per video with that id. */
  function Details(videos: seq<Video>, users: seq<User>, likes: seq<Like>, subs: seq<Subscription>,
                   videoId: Id, viewer: Id): (r: seq<VideoDetail>)
    ensures |r| == Count(videos, VideoId, videoId)
    ensures forall i :: 0 <= i < |r| ==>
      r[i].video in videos && r[i].video.id == videoId && r[i] == Detail(r[i].video, users, likes, subs, viewer)
  {
    var found := Select(videos, VideoId, videoId);
    var r := seq(|found|, i requires 0 <= i < |found| => Detail(found[i], users, likes, subs, viewer));
    assert forall i :: 0 <= i < |r| ==> r[i].video == found[i] && found[i] in found;
    r
  }

  /** The first half of `getVideoById`: the checks and first-view writes of `OpenVideo`,
      done in place. `found` reports whether both the video and the viewer exist. */
  method RecordView(db: Db, videoId: Id, userId: Id, now: int) returns (found: bool)
    requires db.Valid()
    modifies db`videos, db`users
    ensures db.Valid()
    ensures
      var outcome := OpenVideo(ViewState(old(db.videos), old(db.users)), videoId, userId, now);
      && found == outcome.Success?
      && ViewState(db.videos, db.users) == (if found then outcome.value else ViewState(old(db.videos), old(db.users)))
  {
    var vi := Find(db.videos, VideoId, videoId);
    if vi.None? {
      return false;
    }
    var ui := Find(db.users, UserId, userId);
    if ui.None? {
      return false;
    }
    var video, user := db.videos[vi.value], db.users[ui.value];
    var watched := AlreadyWatched(user.watchHistory, videoId);
    if !watched {
      var viewed := video.(views := video.views + 1);
      var visitor := user.(watchHistory := user.watchHistory + [WatchEntry(videoId, now)]);
      WellKeyedUpdate(db.videos, VideoId, db.nextId, vi.value, viewed);
      WellKeyedUpdate(db.users, UserId, db.nextId, ui.value, visitor);
      db.videos, db.users := db.videos[vi.value := viewed], db.users[ui.value := visitor];
    }
    return true;
  }

  /** `getVideoById`: 404 when the video or the viewer is missing, with nothing written;
      otherwise the view is recorded and the detail aggregate is read over the collections
      as written. */
  method GetVideoById(db: Db, videoId: Id, userId: Id, now: int) returns (r: Result<seq<VideoDetail>>)
    requires db.Valid()
    modifies db`videos, db`users
    ensures db.Valid()
    ensures
      var outcome := OpenVideo(ViewState(old(db.videos), old(db.users)), videoId, userId, now);
      && (outcome.Failure? ==>
            r == Failure(NotFound) && db.videos == old(db.videos) && db.users == old(db.users))
      && (outcome.Success? ==>
            && ViewState(db.videos, db.users) == outcome.value
            && r == Success(Details(db.videos, db.users, db.likes, db.subscriptions, videoId, userId)))
  {
    var found := RecordView(db, videoId, userId, now);
    if !found {
      return Failure(NotFound);
    }
    return Success(Details(db.videos, db.users, db.likes, db.subscriptions, videoId, userId));
  }

  // ---------------------------------------------------------------------------
  // getAllVideos: the published-video feed
  // ---------------------------------------------------------------------------

  /** The owner as the feed projects it. */
  datatype OwnerSummary = OwnerSummary(id: Id, fullName: string, avatar: string, username: string)

  /** The feed's `$project` of a looked-up user. */
  function SummaryOf(u: User): OwnerSummary
  {
    OwnerSummary(u.id, u.fullName, u.avatar, u.username)
  }

  /** A feed row: the video, the `owner_details` lookup array (no stage removes it), its first
      element as the flattened owner (absent when no user matched) and the like count. */
  datatype FeedRow = FeedRow(video: Video, ownerDetails: seq<OwnerSummary>, owner: Option<OwnerSummary>, likes: nat)

  /** The feed's `$match`: published, title or description matching the search, and owned by
      `ownerFilter` when one is given. `matches` is the case-insensitive regex test. */
  predicate InFeed(v: Video, matches: (string, string) -> bool, query: string, ownerFilter: Option<Id>)
  {
    && (matches(query, v.title) || matches(query, v.description))
    && v.isPublished
    && (ownerFilter.Some? ==> v.owner == ownerFilter.value)
  }

  /** The videos the `$match` lets through, in stored order. */
  function Matching(videos: seq<Video>, matches: (string, string) -> bool, query: string, ownerFilter: Option<Id>): (r: seq<Video>)
    ensures |r| <= |videos|
    ensures forall v :: v in r ==> v in videos && InFeed(v, matches, query, ownerFilter)
    ensures forall v :: v in videos && InFeed(v, matches, query, ownerFilter) ==> v in r
  {
    if videos == [] then []
    else
      var head := if InFeed(videos[0], matches, query, ownerFilter) then [videos[0]] else [];
      head + Matching(videos[1..], matches, query, ownerFilter)
  }

  /** The owner lookup projected to _id/fullName/avatar/username, kept as `owner_details` and
      flattened by `$arrayElemAt: 0` into `owner`, and the like count. */
  function FeedRowOf(v: Video, users: seq<User>, likes: seq<Like>): (row: FeedRow)
    ensures row.video == v && row.likes == Count(likes, LikedVideo, v.id)
    ensures |row.ownerDetails| == Count(users, UserId, v.owner)
    ensures forall i :: 0 <= i < |row.ownerDetails| ==>
      row.ownerDetails[i] == SummaryOf(Select(users, UserId, v.owner)[i])
    ensures row.owner == if row.ownerDetails == [] then None else Some(row.ownerDetails[0])
    ensures row.owner.Some? <==> exists u :: u in users && u.id == v.owner
    ensures row.owner.Some? ==>
      && row.owner.value.id == v.owner
      && FirstUser(users, v.owner).Some?
      && row.owner.value.fullName == FirstUser(users, v.owner).value.fullName
      && row.owner.value.avatar == FirstUser(users, v.owner).value.avatar
      && row.owner.value.username == FirstUser(users, v.owner).value.username
  {
    var found := Select(users, UserId, v.owner);
    var details := seq(|found|, i requires 0 <= i < |found| => SummaryOf(found[i]));
    var owner := match FirstUser(users, v.owner)
      case None => None
      case Some(u) => Some(SummaryOf(u));
    CountZero(users, UserId, v.owner);
    SelectHeadIsFirst(users, UserId, v.owner);
    FeedRow(v, details, owner, Count(likes, LikedVideo, v.id))
  }

  /** `$sort: {createdAt: -1}`: rows ordered by `createdAt`, newest first. */
  ghost predicate NewestFirst(rows: seq<FeedRow>)
  {
    forall i, j :: 0 <= i < j < |rows| ==> rows[i].video.createdAt >= rows[j].video.createdAt
  }

  /** Puts `row` in front of the first row that is not newer than it. */
  function InsertByNewest(row: FeedRow, rows: seq<FeedRow>): (r: seq<FeedRow>)
    requires NewestFirst(rows)
    ensures NewestFirst(r)
    ensures multiset(r) == multiset(rows) + multiset{row}
    ensures forall x :: x in r ==> x == row || x in rows
  {
    if rows == [] then [row]
    else if row.video.createdAt >= rows[0].video.createdAt then
      NewestInFront(row, rows);
      [row] + rows
    else
      HeadIsNewest(rows);
      var rest := InsertByNewest(row, rows[1..]);
      InsertBehindHead(row, rows, rest);
      [rows[0]] + rest
  }

  /** A row older than the head goes behind it: inserting it into the rest and putting the
      head back in front is newest first and adds exactly that row. */
  lemma InsertBehindHead(row: FeedRow, rows: seq<FeedRow>, rest: seq<FeedRow>)
    requires NewestFirst(rows) && rows != [] && row.video.createdAt < rows[0].video.createdAt
    requires NewestFirst(rest) && multiset(rest) == multiset(rows[1..]) + multiset{row}
    requires forall x :: x in rest ==> x == row || x in rows[1..]
    ensures NewestFirst([rows[0]] + rest)
    ensures multiset([rows[0]] + rest) == multiset(rows) + multiset{row}
    ensures forall x :: x in [rows[0]] + rest ==> x == row || x in rows
  {
    HeadIsNewest(rows);
    assert rows == [rows[0]] + rows[1..];
    NewestInFront(rows[0], rest);
  }

  /** The first row of a newest-first sequence is no older than any row, and the rows after it
      are newest first too. */
  lemma HeadIsNewest(rows: seq<FeedRow>)
    requires NewestFirst(rows) && rows != []
    ensures forall y :: y in rows ==> y.video.createdAt <= rows[0].video.createdAt
    ensures NewestFirst(rows[1..])
  {
    forall y | y in rows ensures y.video.createdAt <= rows[0].video.createdAt {
      var j :| 0 <= j < |rows| && rows[j] == y;
      if j > 0 {
        assert rows[0].video.createdAt >= rows[j].video.createdAt;
      }
    }
    var tail := rows[1..];
    forall i, j | 0 <= i < j < |tail| ensures tail[i].video.createdAt >= tail[j].video.createdAt {
      assert tail[i] == rows[i + 1] && tail[j] == rows[j + 1];
    }
  }

  /** A row no older than the first row of a newest-first sequence can go in front of it. */
  lemma NewestInFront(x: FeedRow, rows: seq<FeedRow>)
    requires NewestFirst(rows)
    requires forall y :: y in rows ==> y.video.createdAt <= x.video.createdAt
    ensures NewestFirst([x] + rows)
  {
    var r := [x] + rows;
    forall i, j | 0 <= i < j < |r| ensures r[i].video.createdAt >= r[j].video.createdAt {
      if i > 0 {
        assert r[i] == rows[i - 1] && r[j] == rows[j - 1];
      } else {
        assert r[j] in rows;
      }
    }
  }

  /** A permutation of `rows` that is newest first (rows with equal `createdAt` keep their order). */
  function SortByNewest(rows: seq<FeedRow>): (r: seq<FeedRow>)
    ensures NewestFirst(r)
    ensures multiset(r) == multiset(rows)
  {
    if rows == [] then []
    else
      assert rows == [rows[0]] + rows[1..];
      InsertByNewest(rows[0], SortByNewest(rows[1..]))
  }

  /** `getAllVideos` before paging: every video of the `$match` (search text defaulting to
      ""), once, with its owner and like count, newest first. */
  function Feed(videos: seq<Video>, users: seq<User>, likes: seq<Like>, matches: (string, string) -> bool,
                query: Option<string>, ownerFilter: Option<Id>): (r: seq<FeedRow>)
    ensures NewestFirst(r)
    ensures
      var q := if query.Some? then query.value else "";
      && |r| == |Matching(videos, matches, q, ownerFilter)|
      && (forall row :: row in r ==>
            row.video in videos && InFeed(row.video, matches, q, ownerFilter) && row == FeedRowOf(row.video, users, likes))
      && (forall v :: v in videos && InFeed(v, matches, q, ownerFilter) ==> FeedRowOf(v, users, likes) in r)
  {
    var q := if query.Some? then query.value else "";
    var found := Matching(videos, matches, q, ownerFilter);
    var rows := RowsOf(found, users, likes);
    RowsOfMembers(found, users, likes);
    var r := SortByNewest(rows);
    SameMembers(r, rows);
    r
  }

  /** The feed rows of `found`, one per video, in its order. */
  function RowsOf(found: seq<Video>, users: seq<User>, likes: seq<Like>): (rows: seq<FeedRow>)
    ensures |rows| == |found|
    ensures forall i :: 0 <= i < |found| ==> rows[i] == FeedRowOf(found[i], users, likes)
  {
    seq(|found|, i requires 0 <= i < |found| => FeedRowOf(found[i], users, likes))
  }

  /** The rows of `found` are exactly the feed rows of its videos. */
  lemma RowsOfMembers(found: seq<Video>, users: seq<User>, likes: seq<Like>)
    ensures var rows := RowsOf(found, users, likes);
      && (forall row :: row in rows ==> row.video in found && row == FeedRowOf(row.video, users, likes))
      && (forall v :: v in found ==> FeedRowOf(v, users, likes) in rows)
  {
    var rows := RowsOf(found, users, likes);
    forall v | v in found ensures FeedRowOf(v, users, likes) in rows {
      var j :| 0 <= j < |found| && found[j] == v;
      assert rows[j] == FeedRowOf(v, users, likes);
    }
    forall row | row in rows ensures row.video in found && row == FeedRowOf(row.video, users, likes) {
      var j :| 0 <= j < |rows| && rows[j] == row;
      assert rows[j] == FeedRowOf(found[j], users, likes);
      assert found[j] in found;
    }
  }

  /** Two orderings of the same rows have the same length and the same members. */
  lemma SameMembers(a: seq<FeedRow>, b: seq<FeedRow>)
    requires multiset(a) == multiset(b)
    ensures |a| == |b|
    ensures forall x :: x in a <==> x in b
  {
    assert |multiset(a)| == |multiset(b)|;
    forall x ensures x in a <==> x in b {
      assert x in a <==> x in multiset(a);
      assert x in b <==> x in multiset(b);
    }
  }

  // ---------------------------------------------------------------------------
  // publishAVideo
  // ---------------------------------------------------------------------------

  /** `publishAVideo`. The media host's answers for the video and the thumbnail are inputs
      (None when an upload fails); `uploaded` lists the paths handed to it, in order, each
      of whose local files is unlinked. Checks, in order: reading the video path throws for
      a multipart request without a `videoFile` field (500); no video path (404); video
      upload (500); reading the thumbnail path throws for a multipart request without a
      `thumbnail` field (500); no thumbnail path (404); thumbnail upload (500). Exactly
      when all pass, one video is created. */
  method PublishAVideo(db: Db, files: Files, videoRemote: Option<Upload>, thumbnailRemote: Option<Upload>,
                       title: string, description: string, owner: Id, now: int, publishedByDefault: bool)
    returns (r: Result<Video>, uploaded: seq<string>)
    requires db.Valid()
    modifies db`videos, db`nextId
    ensures db.Valid()
    ensures r.Failure? ==> db.videos == old(db.videos) && db.nextId == old(db.nextId)
    ensures
      var videoRead := FirstPathAsWritten(files, "videoFile");
      var thumbnailRead := FirstPathAsWritten(files, "thumbnail");
      var hasVideo := videoRead.Success? && Truthy(videoRead.value);
      var videoSent := hasVideo && videoRemote.Some?;
      var hasThumbnail := thumbnailRead.Success? && Truthy(thumbnailRead.value);
      && (videoRead.Failure? ==> r == Failure(ServerError) && uploaded == [])
      && (videoRead.Success? && !Truthy(videoRead.value) ==> r == Failure(NotFound) && uploaded == [])
      && (hasVideo ==> |uploaded| >= 1 && uploaded[0] == videoRead.value.value)
      && (hasVideo && videoRemote.None? ==> r == Failure(ServerError) && uploaded == [videoRead.value.value])
      && (videoSent && thumbnailRead.Failure? ==> r == Failure(ServerError) && uploaded == [videoRead.value.value])
      && (videoSent && thumbnailRead.Success? && !Truthy(thumbnailRead.value) ==>
            r == Failure(NotFound) && uploaded == [videoRead.value.value])
      && (videoSent && hasThumbnail ==> uploaded == [videoRead.value.value, thumbnailRead.value.value])
      && (videoSent && hasThumbnail && thumbnailRemote.None? ==> r == Failure(ServerError))
      && (r.Success? <==> videoSent && hasThumbnail && thumbnailRemote.Some?)
      && (r.Success? ==>
            && r.value == Video(old(db.nextId), videoRemote.value.url, thumbnailRemote.value.url, title, description,
                                videoRemote.value.duration, 0, publishedByDefault, owner, now)
            && db.videos == old(db.videos) + [r.value]
            && db.nextId == old(db.nextId) + 1)
  {
    uploaded := [];
    var videoRead := FirstPathAsWritten(files, "videoFile");
    if videoRead.Failure? {
      return Failure(ServerError), uploaded;
    }
    var videoPath := videoRead.value;
    if !Truthy(videoPath) {
      return Failure(NotFound), uploaded;
    }
    var cloudVideo := UploadToCloudinary(videoPath, videoRemote);
    uploaded := uploaded + cloudVideo.sent;
    if cloudVideo.answer.None? {
      return Failure(ServerError), uploaded;
    }
    var thumbnailRead := FirstPathAsWritten(files, "thumbnail");
    if thumbnailRead.Failure? {
      return Failure(ServerError), uploaded;
    }
    var thumbnailPath := thumbnailRead.value;
    if !Truthy(thumbnailPath) {
      return Failure(NotFound), uploaded;
    }
    var cloudThumbnail := UploadToCloudinary(thumbnailPath, thumbnailRemote);
    uploaded := uploaded + cloudThumbnail.sent;
    if cloudThumbnail.answer.None? {
      return Failure(ServerError), uploaded;
    }
    var video := db.InsertVideo(Video(0, cloudVideo.answer.value.url, cloudThumbnail.answer.value.url, title,
                                      description, cloudVideo.answer.value.duration, 0, publishedByDefault, owner, now));
    return Success(video), uploaded;
  }

  /** A video just published, when published by default and matched by the search, is in
      the feed, both unfiltered and filtered to its owner. */
  lemma PublishedVideoInFeed(videos: seq<Video>, users: seq<User>, likes: seq<Like>, v: Video,
                             matches: (string, string) -> bool, query: string)
    requires v.isPublished && (matches(query, v.title) || matches(query, v.description))
    ensures FeedRowOf(v, users, likes) in Feed(videos + [v], users, likes, matches, Some(query), None)
    ensures FeedRowOf(v, users, likes) in Feed(videos + [v], users, likes, matches, Some(query), Some(v.owner))
  {
    assert v in videos + [v];
  }
}
